=== FILE: README.md ===
# geocam pages, modelled in Dafny

This project models the logic of three pages of the geocam web client. The
client browses the video clips a remote camera device records, plays them
back, and exports a selection as one ZIP archive.

- **Downloads** (`src/Pages/Downloads.jsx`). The selection of clips
  (`handleCheckboxChange`, `handleSelectAll`) and the filter validation.
  Then the bulk download run `handleDownloadAll`, which:
  - refuses an empty selection;
  - prepares the selected clips;
  - estimates the total size;
  - cuts the clips into batches of five (`processVideosInBatches`);
  - downloads each clip (`downloadFile`), normalising its name to end in
    `.mp4`;
  - folds each batch's results into the archive, the success count and the
    failure log;
  - keeps a five-sample throughput window and an ETA text
    (`updateDownloadStats`, `formatTime`);
  - reports, or opens the failure dialog.
- **Home** (`src/Pages/Home.jsx`). The archive player:
  - the filter form and its validation;
  - the fetch that sorts clips by start time;
  - a cursor that advances at the end of each clip and wraps to the first;
  - the slider;
  - the preload of the next clip;
  - the `HH:MM:SS` display time.
- **LivePreview** (`src/Pages/LivePreview.jsx`). The live view:
  - the live-status check;
  - the refresh that puts the cursor on the newest clip;
  - the end of a clip, which advances or asks for a refresh;
  - the device change;
  - the guard on the effect that loads a clip.

The network, the clock and the ZIP library are not called. Each is a
parameter of the model:

- what the catalog answered (`Clips.Fetch`);
- what each file download answered (`Transfer.Response`);
- what the live check answered (`Live.LiveAnswer`);
- whether ZIP generation succeeded;
- the elapsed milliseconds of each finished file.

Modules, one file each:

| file | module | models |
|---|---|---|
| wrappers.dfy | Wrappers | `Option` |
| arith.dfy | Arith | uniqueness of Euclidean quotients, stepping a residue |
| text.dfy | Text | split/join, reverse, decimal digits, string order, `endsWith` |
| clips.dfy | Clips | clip records, sort by start time, `find` by id |
| clock.dfy | Clock | `formatDisplayTime` and `HH:MM:SS` order |
| validation.dfy | Validation | stored dates, both pages' `validateInputs`, `handleFilterChange` |
| eta.dfy | Eta | `formatTime` |
| speed.dfy | Speed | `updateDownloadStats` |
| selection.dfy | Selection | the selected-id set, select-all, prepare |
| transfer.dfy | Transfer | `downloadFile` |
| batching.dfy | Batching | the batch cut |
| accounting.dfy | Accounting | the per-batch fold into archive, counters and failure log |
| run.dfy | DownloadRun | `handleDownloadAll` |
| player.dfy | Player | Home.jsx playback state |
| live.dfy | Live | LivePreview.jsx state |

## Model

| member | source | states |
|---|---|---|
| Clips.SortByStart | src/Pages/Home.jsx:111-115 | The sorted list holds the same clips (as a multiset) and is ordered by start time. |
| Clips.Find | src/Pages/Downloads.jsx:379-381 | Find returns a clip with the id, and it is the first in list order. It returns nothing exactly when no listed clip has the id. |
| Clock.DisplayTimeReadsBack | src/Pages/Home.jsx:13-18 | The display text reads back as the seconds it came from. Below 100 hours it is exactly `HH:MM:SS` with minutes and seconds under 60. |
| Clock.FieldIsPadded | src/Pages/Home.jsx:14-16 | Each display field is the decimal number left-padded with "0" to two characters. |
| Clock.HoursMinutesSeconds | src/Pages/Home.jsx:14-16 | Hours, minutes and seconds recompose the input. Minutes and seconds stay below 60. |
| Clock.TimeOrder | src/Pages/Home.jsx:74 | For well-formed `HH:MM:SS` strings, string `<` is the order of the instants they denote. |
| Validation.ReverseFieldsInvolution | src/Pages/Home.jsx:66-67 | Reversing the dash-separated fields twice gives back any string. |
| Validation.Check | src/Pages/Home.jsx:62-80 | The form passes exactly when no error key is set. A date error needs two readable dates. A time error needs two different times. |
| Validation.VerdictMeaning | src/Pages/Home.jsx:62-80 | For stored dates and well-formed times, there is a date error iff the from-date is later. There is a time error iff the from-time is a later instant. The form passes iff neither holds. |
| Validation.StoredDateReadsBack | src/Pages/Downloads.jsx:145-148 | A `DD-MM-YYYY` date reads back as the calendar date it was made from. This holds on both pages. |
| Validation.SameDateOnThreeFields | src/Pages/Downloads.jsx:145-148 | The download page's `parseDate` reads a three-field date exactly as the player's reverse-and-join does. |
| Validation.SameRuleOnThreeFields | src/Pages/Downloads.jsx:141-160 | The two pages' validations give the same verdict on every filter whose dates have three fields. |
| Validation.FilterChange | src/Pages/Home.jsx:51-59 | A date input's value is stored with its fields reversed. Any other field leaves both dates unchanged. |
| Validation.DateInputShowsEntry | src/Pages/Home.jsx:51-59 | After a date change, the input displays exactly what was entered. |
| Eta.FormatTimeReadsBack | src/Pages/Downloads.jsx:117-130 | Zero gives "Calculating...". For whole seconds the text is "<s> seconds" below a minute, "<m> min <s> sec" below an hour and "<h> hr <m> min" from an hour on. Read back, it is exact below one hour and correct to the minute from one hour on. |
| Speed.SampleOf | src/Pages/Downloads.jsx:252 | A file with bytes and elapsed time gives a positive KB/s sample. |
| Speed.Push | src/Pages/Downloads.jsx:254-259 | The new sample goes last. The oldest sample is dropped only when the window would exceed five. |
| Speed.Mean | src/Pages/Downloads.jsx:262-263 | The mean of a non-empty window of positive samples is positive, so the `avgSpeed > 0` guard always holds. |
| Speed.Record | src/Pages/Downloads.jsx:247-274 | Without bytes or elapsed time nothing changes. Otherwise the window is the pushed window and the speed is its positive mean. The ETA is the formatted remaining time at that speed. The window stays at most five positive samples. |
| Speed.RunStart | src/Pages/Downloads.jsx:362-373 | A run starts with no samples and an empty ETA text. The speed shown is left at the previous run's value. |
| Speed.WindowIsLastFive | src/Pages/Downloads.jsx:254-259 | From a run's start, the window after any sequence of finished files is exactly the five most recent samples, in order. |
| Speed.StaleSpeedUntilFirstSample | src/Pages/Downloads.jsx:251-265 | Until the run's first sample, the stats shown are the run's start: the previous run's speed and no ETA text. |
| Speed.FirstRunEtaCalculating | src/Pages/Downloads.jsx:266-272 | When the remaining byte count read is 0 for every file, as on the page's first run, the ETA text is empty before the first sample and "Calculating..." after it. It never shows a time. |
| Speed.NoSampleNoChange | src/Pages/Downloads.jsx:251 | A zero-byte file, or one finishing at the start instant, changes nothing shown. |
| Selection.Remove | src/Pages/Downloads.jsx:190 | Deletion keeps every other id and drops the one given. It keeps distinctness and shrinks by one when the id was present. In a distinct selection the result is the selection with that one position cut out, so the other ids keep their order. |
| Selection.Toggle | src/Pages/Downloads.jsx:186-196 | The id is selected afterwards iff it was not before. Other ids are unaffected. An added id goes last. A removed id is cut out at its position, and the other ids keep their order. |
| Selection.ToggleTwice | src/Pages/Downloads.jsx:186-196 | Toggling twice restores the selected set. When the id was absent it restores the exact sequence. |
| Selection.Dedup | src/Pages/Downloads.jsx:202 | `new Set(list)` is duplicate-free and has the list's elements. An already distinct list is unchanged. |
| Selection.SelectAll | src/Pages/Downloads.jsx:198-205 | A selection as large as the list is cleared. Otherwise the result is the distinct ids of the listed clips, exactly. |
| Selection.SelectAllTwice | src/Pages/Downloads.jsx:198-205 | With distinct clip ids, select-all picks every id in list order, and a second select-all clears. |
| Selection.ClearsOnSizeAlone | src/Pages/Downloads.jsx:199-200 | A selection that matches the list's size is cleared even when it holds a stale id. |
| Selection.Prepare | src/Pages/Downloads.jsx:379-381 | Prepared clips are listed and selected, and there are no more of them than selected ids. Every found id contributes its first clip. When all ids are found, the ids come back in selection order. |
| Selection.PrepareCount | src/Pages/Downloads.jsx:379-381 | There is exactly one prepared clip per selected id that some listed clip has. |
| Selection.PrepareDistinct | src/Pages/Downloads.jsx:379-381 | Distinct selected ids yield distinct prepared clips. |
| Transfer.Normalize | src/Pages/Downloads.jsx:301 | The name ends in ".mp4". It is unchanged if it already did, and gets ".mp4" appended otherwise. |
| Transfer.NormalizeIdempotent | src/Pages/Downloads.jsx:301 | Normalising twice equals normalising once. The original name is a prefix. |
| Transfer.Download | src/Pages/Downloads.jsx:277-308 | The result is a success iff the response had a body. A success carries the normalised name and the bytes. A failure carries the clip's own filename, with "Failed to download <name>" for an HTTP error or the thrown message. |
| Batching.BatchesProperties | src/Pages/Downloads.jsx:313-316 | The batches concatenate back to the input in order. Each is non-empty and at most five long, and all but the last are full. There are ceil(n / size) of them. |
| Batching.Partition | src/Pages/Downloads.jsx:313-316 | The page's slicing loop produces exactly the reference cut, with its order, shape and count. |
| Batching.TwelveInFives | src/Pages/Downloads.jsx:313-316 | A worked case: twelve clips give batches of 5, 5 and 2. |
| Accounting.AbsorbAllMeaning | src/Pages/Downloads.jsx:340-347 | The fold counts every success and logs every failure in order. It leaves the processed counter alone. Each name holds its last success. |
| Accounting.SuccessesPlusFailures | src/Pages/Downloads.jsx:340-347 | Every result is either a counted success or a logged failure. |
| Accounting.ArchiveBounded | src/Pages/Downloads.jsx:340-347 | The archive never has more entries than counted successes. |
| Accounting.BatchedIsFlat | src/Pages/Downloads.jsx:324-350 | Folding batch by batch equals folding all results at once, with the counter advanced by their number. |
| Accounting.RunMeaning | src/Pages/Downloads.jsx:311-353 | A run from empty gives one processed tick per result, the success count and the ordered failure log. Successes plus failures equal the processed count. Each archive name maps to its last success. |
| Accounting.FailuresNonEmpty | src/Pages/Downloads.jsx:340-347 | The failure log is non-empty exactly when some result is a failure. |
| Accounting.TraceCountsUp | src/Pages/Downloads.jsx:329-335 | Across all batches the per-transfer counter values go up by one from the start value. |
| Accounting.ProcessedCounterTrace | src/Pages/Downloads.jsx:321-335 | The per-transfer counter values number exactly the transfers the batch loop counts. Each is one more than the last, and the final one is the loop's processed count. |
| DownloadRun.Outcomes | src/Pages/Downloads.jsx:329-337 | Each result is the download of the clip at the same position. |
| DownloadRun.BatchOutcomesFlatten | src/Pages/Downloads.jsx:324-337 | Downloading batch by batch yields the per-clip results in clip order. |
| DownloadRun.EmptySelectionWarns | src/Pages/Downloads.jsx:357-360 | An empty selection only posts the warning. Nothing else on the page changes. |
| DownloadRun.DownloadAllMeaning | src/Pages/Downloads.jsx:356-433 | A non-empty selection ends idle with the 5 MiB-per-clip estimate, ceil(n / 5) batches and one processed tick per prepared clip. The failure log is that of the per-clip results, and successes plus failures equal n. Each archive name holds its last success. With the ZIP built it posts the summary. The page as written then has the dialog open iff it was open or the log from before the run was non-empty. The intended rule uses this run's log instead. Without the ZIP it shows the error and opens the dialog. |
| DownloadRun.ProcessMeaning | src/Pages/Downloads.jsx:388-431 | The run steps after preparation give the page `DownloadAllMeaning` describes, for any prepared list. This includes the as-written dialog rule on the log from before the run. |
| DownloadRun.EverySelectedClipOnce | src/Pages/Downloads.jsx:379-381 | Distinct selected ids that are all listed are prepared exactly once each, in selection order. |
| DownloadRun.FailureLogged | src/Pages/Downloads.jsx:340-347 | A run logs a failure exactly when the download of some prepared clip does not answer with a body. |
| DownloadRun.FailureOpensDialog | src/Pages/Downloads.jsx:423-425 | With the intended rule, a run whose archive is built has the dialog open iff it was open or some prepared clip's download failed. |
| DownloadRun.StaleDialogMissesFailure | src/Pages/Downloads.jsx:423-425 | Take the page with the dialog closed and no earlier failures, and one selected clip whose download fails. The as-written run logs one failure and leaves the dialog closed. The intended run opens it. |
| Player.VideoEnd | src/Pages/Home.jsx:161-168 | At the end of a clip the cursor moves to the next clip, or to 0 after the last. Playback starts and nothing else changes. |
| Player.EndsWrapAround | src/Pages/Home.jsx:161-168 | After n clip ends the cursor is at (i + n) mod length, so every clip comes round again. |
| Player.CursorStaysInBounds | src/Pages/Home.jsx:154-168 | A clip end, or a slider value in the slider's range, keeps the cursor on a clip. |
| Player.Fetched | src/Pages/Home.jsx:91-127 | A non-empty answer is sorted, with the cursor at 0 and playing. An empty answer or a failure clears the list and shows the message. |
| Player.FetchShowsEarliest | src/Pages/Home.jsx:104-119 | After a non-empty fetch the current clip is the earliest of the answer. |
| Player.FetchKeepsBounds | src/Pages/Home.jsx:91-127 | Every fetch outcome keeps the cursor on a clip when there is one. |
| Player.Current | src/Pages/Home.jsx:48 | There is a current clip iff the cursor is inside the list, and it is the clip at the cursor. |
| Player.Preload | src/Pages/Home.jsx:196-200 | A clip is preloaded iff the cursor is before the last clip, and it is the following one. |
| Player.PreloadIsNext | src/Pages/Home.jsx:196-200 | The preloaded clip is the one the next clip end plays. |
| Player.FilterGatesFetch | src/Pages/Home.jsx:62-88 | For stored dates and `HH:MM:SS` times, a later from-date or from-time is recorded as the matching error. Then nothing is fetched, and list, cursor, playback and the shown error stay as they were. Otherwise the errors clear and the fetch's answer is applied. |
| Live.Refresh | src/Pages/LivePreview.jsx:79-109 | A non-empty answer is sorted, with the cursor on the last clip and the error cleared. An empty answer empties the list. A failure keeps the list and cursor and shows the prefixed error. |
| Live.RefreshLoadsNewest | src/Pages/LivePreview.jsx:87-101 | After a non-empty refresh of a view that is live and not loading, the view loads the newest clip of the answer. |
| Live.VideoEnd | src/Pages/LivePreview.jsx:112-119 | Before the last clip the cursor advances. At or past it a refresh is requested and nothing moves. |
| Live.EndAtNewestRefreshes | src/Pages/LivePreview.jsx:112-119 | The end of the newest clip asks for a refresh. A refresh with clips puts the cursor on the newest. |
| Live.DeviceChange | src/Pages/LivePreview.jsx:173-183 | A device change sets the new device, clears the list and cursor, and is loading and not live. |
| Live.DeviceChangeLoadsNothing | src/Pages/LivePreview.jsx:173-183 | Nothing is loaded after a device change, nor after the live check it starts. |
| Live.LiveStatus | src/Pages/LivePreview.jsx:51-76 | The check always ends loading. The device is live iff the endpoint said so, and only then is a fetch started. It sets "Device is offline" with its error, or "Connection error" with the prefixed message. |
| Live.Load | src/Pages/LivePreview.jsx:220-291 | A URL is loaded iff the view is live and not loading (otherwise the video element is not mounted), the list is non-empty and the cursor is inside it. It is the current clip's URL. |
| Live.TransitionsKeepBounds | src/Pages/LivePreview.jsx:79-119 | Refresh, clip end, device change and live check all keep the cursor on a clip when there is one. |

## Left out

- Network, endpoints and query strings. Catalog answers, file responses,
  live answers and ZIP success are parameters. A non-2xx catalog answer
  arrives as `Failed` with its message.
- Response bodies other than lists. `response.data` being null in
  LivePreview.jsx is treated as an empty list.
- JSZip's compression, its progress percentage, and the generated archive's
  bytes. The archive is a map from name to bytes. JSZip is assumed to
  replace an entry of the same name.
- The download link, the object URL and the archive's file name
  (`videos-<date>-<user>.zip`), because they depend on the clock and the
  DOM.
- Rounded percentages (`downloadProgress`, `batchProgress`),
  `downloadedSize`, the content-length header and `formatFileSize`. These
  are display-only.
- Floating point. Speeds, means and ETA seconds are exact reals. NaN and
  Infinity are not modelled.
- Speed.Record: `remainingBytes` is a parameter. `updateDownloadStats`
  (src/Pages/Downloads.jsx:266-268) reads `totalSize` and `downloadedSize`
  through the closure of the render that handled the click. The resets at
  src/Pages/Downloads.jsx:369-370, the estimate at :389 and the updates at
  :297 never reach it. So the remaining byte count is the previous run's
  leftover, fixed for the whole run. On the page's first run it is 0 - 0 =
  0, and every ETA is "Calculating..." (`Speed.FirstRunEtaCalculating`).
- Timers and intervals: the 60 s live check, the 20 s refresh, control
  auto-hide and the current-time ticker. Play/pause, volume, fullscreen,
  `localStorage` and mobile layout are also left out. These are
  presentation and scheduling.
- Clips.SortByStart: `start` stands for the instant the comparator derives
  from `fromtime` via `Date`. Unparsable times (NaN comparisons) are left
  out. Stability of the sort is not stated.
- The download page's own catalog fetch sorts with `localeCompare` on
  `fromtime` (src/Pages/Downloads.jsx:229). That fetch is not part of this
  model.
- Validation.FilterChange: Home.jsx stores `formatDate(value)`, which goes
  through `Date` and the local time zone. The model uses the time-zone-free
  result for well-formed input, the reversal of the three fields.
- Validation.DateInputShowsEntry: it holds for the model's time-zone-free
  reversal. The page's `formatDate` (src/Pages/Home.jsx:5-11, called at
  :55) reads `"YYYY-MM-DD"` as UTC midnight and takes the day in local
  time. West of UTC the page stores, and the input shows, the previous day.
- Validation.IsoDate: it accepts days 1 to 31 in every month. How the
  engine treats dates such as 30 February is not modelled.
- Clock.DisplayTimeReadsBack: it covers whole seconds. The page passes a
  fractional `currentTime` unchanged and floors each of the three quotients
  on its own (src/Pages/Home.jsx:14-16). For t >= 0 each floored field
  equals the matching field of floor(t), so whole seconds lose nothing.
  Negative times are not modelled.
- Eta.FormatTimeReadsBack: it covers whole non-negative seconds.
  `FormatTime` itself is defined on all reals, including fractions and
  negatives.
- The failure dialog's contents, its retry buttons and its closing.
- The batch size is fixed at five. The page never changes its `batchSize`
  state.
- React's asynchronous state updates are modelled as their net effect at
  the end of a run. Handlers that read state through a stale closure are
  modelled only where stated. The download run's dialog check is one, and
  it is listed under Findings. `DownloadAll` takes the rule as a parameter:
  `AsWritten` is the page, and `Intended` is the evident intent.
- Live.Load: the load effect (src/Pages/LivePreview.jsx:220-234) runs only
  when `videoData` or `currentVideoIndex` changes. Going live again with
  an unchanged list and cursor loads nothing, and the model's `Load` does
  not track when the effect runs; it states what a run of the effect does.
- Live.LiveStatus: the answer is a parameter, so the model does not say
  which device it concerns. `handleDeviceChange`
  (src/Pages/LivePreview.jsx:173-183) calls `checkDeviceLiveStatus` from
  its own closure. That request (src/Pages/LivePreview.jsx:57) still names
  the previous device. The effect at src/Pages/LivePreview.jsx:186-187
  then checks the new device. Which of the two answers lands last is
  timing, and is not modelled.
- The 20 s refresh interval (src/Pages/LivePreview.jsx:202-206) reads
  `isLive` from the render in which the device was set, on mount or after a
  change. In that render `isLive` is false, so the interval never
  refreshes. Intervals are not modelled.

## Findings

| source | as written | input that shows it | evidently intended | confidence | as-written member | corrected member |
|---|---|---|---|---|---|---|
| src/Pages/Downloads.jsx:423-425 | After the archive is built, the dialog opens if `failedDownloads.length > 0`. `failedDownloads` is the value captured when `handleDownloadAll` began, before the run reset and refilled the log. | A first run with one clip whose download answers non-2xx. The log holds one entry, but the captured log is empty, so the dialog stays closed. | Open the dialog when this run logged a failure. | not executed | DownloadRun.StaleDialogMissesFailure | DownloadRun.FailureOpensDialog |

=== FILE: accounting.dfy ===
/**
 The bookkeeping of `processVideosInBatches`: each batch's results settle
 together (`Promise.all` keeps input order), then `forEach` puts every
 success into the archive under its filename and counts it, and appends
 every failure to the failure log. `processedCount` rises by one per
 finished transfer.
 */
module Accounting {

  import opened Wrappers
  import opened Transfer
  import Batching

  /** One entry of `failedDownloads`. */
  datatype FailureRecord = FailureRecord(filename: string, error: string)

  /**
   The run's accumulated state: the archive's entries (JSZip's `file`
   replaces an entry of the same name), `totalDownloaded`, the failure log
   and `processedCount`.
   */
  datatype Tally = Tally(
    archive: map<string, Payload>,
    downloaded: nat,
    failures: seq<FailureRecord>,
    processed: nat)

  const Empty := Tally(map[], 0, [], 0)

  /** The `forEach` body for one result. */
  function Absorb(t: Tally, o: Outcome): Tally
  {
    match o
    case Success(name, blob) => t.(archive := t.archive[name := blob], downloaded := t.downloaded + 1)
    case Failure(name, error) => t.(failures := t.failures + [FailureRecord(name, error)])
  }

  /** `batchResults.forEach(...)`, in result order. */
  function AbsorbAll(t: Tally, os: seq<Outcome>): Tally
    decreases |os|
  {
    if |os| == 0 then t else Absorb(AbsorbAll(t, os[..|os| - 1]), os[|os| - 1])
  }

  /** One batch: every transfer bumps the processed counter, then the results are folded. */
  function RunBatch(t: Tally, batch: seq<Outcome>): Tally
  {
    AbsorbAll(t.(processed := t.processed + |batch|), batch)
  }

  /** The batch loop. */
  function RunBatches(t: Tally, batches: seq<seq<Outcome>>): Tally
    decreases |batches|
  {
    if |batches| == 0 then t else RunBatches(RunBatch(t, batches[0]), batches[1..])
  }

  // Independent accounts of a result sequence.

  function Successes(os: seq<Outcome>): nat
  {
    if |os| == 0 then 0 else Successes(os[..|os| - 1]) + (if os[|os| - 1].Success? then 1 else 0)
  }

  /** The failures, as log records, in result order. */
  function FailuresOf(os: seq<Outcome>): seq<FailureRecord>
  {
    if |os| == 0 then []
    else
      var last := os[|os| - 1];
      FailuresOf(os[..|os| - 1]) + (if last.Failure? then [FailureRecord(last.filename, last.error)] else [])
  }

  /** The bytes of the last success stored under `name`, if any. */
  function LastStored(os: seq<Outcome>, name: string): Option<Payload>
  {
    if |os| == 0 then None
    else
      var last := os[|os| - 1];
      if last.Success? && last.filename == name then Some(last.blob) else LastStored(os[..|os| - 1], name)
  }

  function Lookup(m: map<string, Payload>, name: string): Option<Payload>
  {
    if name in m then Some(m[name]) else None
  }

  /**
   Folding results into a tally counts every success, logs every failure in
   order and leaves the processed counter alone; the archive holds, under
   each name, the last success of that name (earlier entries are kept for
   names no result uses).
   */
  lemma {:induction false} AbsorbAllMeaning(t: Tally, os: seq<Outcome>)
    ensures AbsorbAll(t, os).downloaded == t.downloaded + Successes(os)
    ensures AbsorbAll(t, os).failures == t.failures + FailuresOf(os)
    ensures AbsorbAll(t, os).processed == t.processed
    ensures forall name :: Lookup(AbsorbAll(t, os).archive, name)
                           == (if LastStored(os, name).Some? then LastStored(os, name) else Lookup(t.archive, name))
    decreases |os|
  {
    if |os| > 0 {
      AbsorbAllMeaning(t, os[..|os| - 1]);
    }
  }

  /** The failure log is non-empty exactly when some result is a failure. */
  lemma {:induction false} FailuresNonEmpty(os: seq<Outcome>)
    ensures |FailuresOf(os)| > 0 <==> exists i :: 0 <= i < |os| && os[i].Failure?
    decreases |os|
  {
    if |os| > 0 {
      var prefix := os[..|os| - 1];
      FailuresNonEmpty(prefix);
      assert forall i :: 0 <= i < |prefix| ==> prefix[i] == os[i];
      if exists i :: 0 <= i < |os| && os[i].Failure? {
        var i :| 0 <= i < |os| && os[i].Failure?;
        if i < |prefix| {
          assert prefix[i].Failure?;
        }
      }
    }
  }

  /** Every result is either a counted success or a logged failure. */
  lemma {:induction false} SuccessesPlusFailures(os: seq<Outcome>)
    ensures Successes(os) + |FailuresOf(os)| == |os|
    decreases |os|
  {
    if |os| > 0 {
      SuccessesPlusFailures(os[..|os| - 1]);
    }
  }

  /** Folding two runs of results one after the other is folding their concatenation. */
  lemma {:induction false} AbsorbAllAppend(t: Tally, a: seq<Outcome>, b: seq<Outcome>)
    ensures AbsorbAll(AbsorbAll(t, a), b) == AbsorbAll(t, a + b)
    decreases |b|
  {
    if |b| == 0 {
      assert a + b == a;
    } else {
      AbsorbAllAppend(t, a, b[..|b| - 1]);
      assert (a + b)[..|a + b| - 1] == a + b[..|b| - 1];
    }
  }

  /** The fold never reads the processed counter. */
  lemma {:induction false} AbsorbAllProcessed(t: Tally, os: seq<Outcome>, p: nat)
    ensures AbsorbAll(t.(processed := p), os) == AbsorbAll(t, os).(processed := p)
    decreases |os|
  {
    if |os| > 0 {
      AbsorbAllProcessed(t, os[..|os| - 1], p);
    }
  }

  /**
   Folding batch by batch is folding the whole result sequence once, with
   the processed counter advanced by the number of results.
   */
  lemma {:induction false} BatchedIsFlat(t: Tally, batches: seq<seq<Outcome>>)
    ensures RunBatches(t, batches) ==
      AbsorbAll(t, Batching.Flatten(batches)).(processed := t.processed + |Batching.Flatten(batches)|)
    decreases |batches|
  {
    if |batches| > 0 {
      var b := batches[0];
      var rest := Batching.Flatten(batches[1..]);
      var t1 := RunBatch(t, b);
      BatchedIsFlat(t1, batches[1..]);
      AbsorbAllProcessed(t, b, t.processed + |b|);
      AbsorbAllProcessed(AbsorbAll(t, b), rest, t.processed + |b|);
      AbsorbAllAppend(t, b, rest);
      AbsorbAllProcessed(AbsorbAll(t, b + rest), [], t.processed + |b| + |rest|);
    }
  }

  /**
   A whole run from the empty tally: one processed tick per result, the
   successes counted, the failures logged in order, successes plus failures
   equal to the results, and each archive name holding its last success.
   */
  lemma RunMeaning(batches: seq<seq<Outcome>>)
    ensures var os := Batching.Flatten(batches);
      var r := RunBatches(Empty, batches);
      && r.processed == |os|
      && r.downloaded == Successes(os)
      && r.failures == FailuresOf(os)
      && r.downloaded + |r.failures| == r.processed
      && forall name :: Lookup(r.archive, name) == LastStored(os, name)
  {
    var os := Batching.Flatten(batches);
    BatchedIsFlat(Empty, batches);
    AbsorbAllMeaning(Empty, os);
    SuccessesPlusFailures(os);
  }

  /** The archive never has more entries than counted successes (equal names share one). */
  lemma {:induction false} ArchiveBounded(t: Tally, os: seq<Outcome>)
    requires |t.archive| <= t.downloaded
    ensures |AbsorbAll(t, os).archive| <= AbsorbAll(t, os).downloaded
    decreases |os|
  {
    if |os| > 0 {
      ArchiveBounded(t, os[..|os| - 1]);
      var prev := AbsorbAll(t, os[..|os| - 1]);
      var last := os[|os| - 1];
      if last.Success? {
        UpdateGrowsByOne(prev.archive, last.filename, last.blob);
      }
    }
  }

  lemma UpdateGrowsByOne(m: map<string, Payload>, k: string, v: Payload)
    ensures |m[k := v]| <= |m| + 1
  {
    assert m[k := v].Keys == m.Keys + {k};
    if k in m {
      assert m.Keys + {k} == m.Keys;
    } else {
      assert |m.Keys + {k}| == |m.Keys| + 1;
    }
  }

  /**
   The values `processedCount` takes during a batch of `n` transfers that
   starts from `start`: one more per finished transfer, whichever finishes
   first.
   */
  function Ticks(start: nat, n: nat): (r: seq<nat>)
    decreases n
  {
    if n == 0 then [] else Ticks(start, n - 1) + [start + n]
  }

  /** The counter values shown over the whole batch loop. */
  function Trace(start: nat, batches: seq<seq<Outcome>>): seq<nat>
    decreases |batches|
  {
    if |batches| == 0 then []
    else Ticks(start, |batches[0]|) + Trace(start + |batches[0]|, batches[1..])
  }

  lemma {:induction false} TicksCount(start: nat, n: nat)
    ensures |Ticks(start, n)| == n
    ensures forall i :: 0 <= i < n ==> Ticks(start, n)[i] == start + i + 1
    decreases n
  {
    if n > 0 {
      TicksCount(start, n - 1);
    }
  }

  /**
   Across all batches the counter shows 1, 2, ..., n for n results, ending at
   the number of prepared clips.
   */
  lemma {:induction false} TraceCountsUp(start: nat, batches: seq<seq<Outcome>>)
    ensures |Trace(start, batches)| == |Batching.Flatten(batches)|
    ensures forall i :: 0 <= i < |Trace(start, batches)| ==> Trace(start, batches)[i] == start + i + 1
    decreases |batches|
  {
    if |batches| > 0 {
      var n := |batches[0]|;
      TicksCount(start, n);
      TraceCountsUp(start + n, batches[1..]);
    }
  }

  /**
   The counter values the transfers show match the batch loop's counter:
   one value per transfer, each one more than the last, and the final one
   is the processed count the loop ends with.
   */
  lemma ProcessedCounterTrace(t: Tally, batches: seq<seq<Outcome>>)
    ensures |Trace(t.processed, batches)| == RunBatches(t, batches).processed - t.processed
    ensures forall i :: 0 <= i < |Trace(t.processed, batches)| ==> Trace(t.processed, batches)[i] == t.processed + i + 1
    ensures |Trace(t.processed, batches)| > 0 ==>
      Trace(t.processed, batches)[|Trace(t.processed, batches)| - 1] == RunBatches(t, batches).processed
  {
    TraceCountsUp(t.processed, batches);
    BatchedIsFlat(t, batches);
  }
}

=== FILE: arith.dfy ===
/** Facts about Euclidean division that the batch count and the player's wrap-around rest on. */
module Arith {

  /** Integer division is the unique quotient with a remainder in [0, b). */
  lemma DivUnique(a: int, b: int, q: int, r: int)
    requires b > 0 && 0 <= r < b && a == q * b + r
    ensures a / b == q
  {
    var k := a / b - q;
    assert k * b == a % b - r by {
      assert a == (a / b) * b + a % b;
      assert (a / b) * b == k * b + q * b;
    }
    SmallMultiple(k, b);
  }

  lemma SmallMultiple(k: int, b: int)
    requires b > 0 && -b < k * b < b
    ensures k == 0
  {
    if k >= 1 {
      MulAtLeast(k, b);
    } else if k <= -1 {
      MulAtLeast(-k, b);
    }
  }

  lemma {:induction false} MulAtLeast(k: int, b: int)
    requires k >= 1 && b > 0
    ensures k * b >= b
    decreases k
  {
    if k > 1 {
      MulAtLeast(k - 1, b);
      assert k * b == (k - 1) * b + b;
    }
  }

  /** Counting up by one modulo `m` steps to the next residue, wrapping to 0. */
  lemma ModStep(a: nat, m: nat)
    requires m > 0
    ensures (a + 1) % m == if a % m < m - 1 then a % m + 1 else 0
  {
    var q, r := a / m, a % m;
    assert a == q * m + r;
    if r < m - 1 {
      DivUnique(a + 1, m, q, r + 1);
    } else {
      assert a + 1 == (q + 1) * m;
      DivUnique(a + 1, m, q + 1, 0);
    }
  }
}

=== FILE: batching.dfy ===
/**
 How `processVideosInBatches` cuts the prepared clips into batches:
 `for (i = 0; i < n; i += batchSize) batches.push(arr.slice(i, i + batchSize))`.
 */
module Batching {

  import opened Arith

  /** The page's initial `batchSize` state. */
  const DefaultBatchSize := 5

  /** Reference definition: a full batch off the front, until at most one batch is left. */
  function Batches<T>(xs: seq<T>, size: nat): seq<seq<T>>
    requires size > 0
    decreases |xs|
  {
    if |xs| == 0 then []
    else if |xs| <= size then [xs]
    else [xs[..size]] + Batches(xs[size..], size)
  }

  function Flatten<T>(xss: seq<seq<T>>): seq<T>
  {
    if |xss| == 0 then [] else xss[0] + Flatten(xss[1..])
  }

  /** Every batch is non-empty and at most `size` long; all but the last are full. */
  predicate WellCut<T>(bs: seq<seq<T>>, size: nat)
  {
    && (forall i :: 0 <= i < |bs| ==> 0 < |bs[i]| <= size)
    && (forall i :: 0 <= i < |bs| - 1 ==> |bs[i]| == size)
  }

  /** ceil(n / size) */
  function CeilDiv(n: nat, size: nat): nat
    requires size > 0
  {
    (n + size - 1) / size
  }

  /**
   Concatenating the batches gives back the input in order, the cut is well
   formed, and there are ceil(n / size) batches (none for no clips).
   */
  lemma BatchesProperties<T>(xs: seq<T>, size: nat)
    requires size > 0
    ensures Flatten(Batches(xs, size)) == xs
    ensures WellCut(Batches(xs, size), size)
    ensures |Batches(xs, size)| == CeilDiv(|xs|, size)
  {
    BatchesFlatten(xs, size);
    BatchesWellCut(xs, size);
    BatchesCount(xs, size);
  }

  lemma {:induction false} BatchesFlatten<T>(xs: seq<T>, size: nat)
    requires size > 0
    ensures Flatten(Batches(xs, size)) == xs
    decreases |xs|
  {
    if |xs| == 0 {
    } else if |xs| <= size {
      assert Flatten([xs]) == xs + Flatten([xs][1..]);
    } else {
      var rest := Batches(xs[size..], size);
      BatchesFlatten(xs[size..], size);
      var bs := [xs[..size]] + rest;
      assert bs[1..] == rest;
      assert xs[..size] + xs[size..] == xs;
    }
  }

  lemma {:induction false} BatchesWellCut<T>(xs: seq<T>, size: nat)
    requires size > 0
    ensures WellCut(Batches(xs, size), size)
    decreases |xs|
  {
    if |xs| > size {
      var rest := Batches(xs[size..], size);
      BatchesWellCut(xs[size..], size);
      var bs := [xs[..size]] + rest;
      assert forall i :: 1 <= i < |bs| ==> bs[i] == rest[i - 1];
    }
  }

  lemma {:induction false} BatchesCount<T>(xs: seq<T>, size: nat)
    requires size > 0
    ensures |Batches(xs, size)| == CeilDiv(|xs|, size)
    decreases |xs|
  {
    var n := |xs|;
    if n == 0 {
    } else if n <= size {
      OneQuotient(n + size - 1, size);
    } else {
      BatchesCount(xs[size..], size);
      ShiftQuotient(n + size - 1, size);
    }
  }

  lemma OneQuotient(a: nat, b: nat)
    requires b > 0 && b <= a < 2 * b
    ensures a / b == 1
  {
    DivUnique(a, b, 1, a - b);
  }

  lemma ShiftQuotient(a: nat, b: nat)
    requires b > 0 && a >= b
    ensures a / b == (a - b) / b + 1
  {
    var q, r := (a - b) / b, (a - b) % b;
    assert a == (q + 1) * b + r;
    DivUnique(a, b, q + 1, r);
  }

  function Min(a: nat, b: nat): nat
  {
    if a <= b then a else b
  }

  /** The page's loop: the slice end is clamped to the input's length, as `slice` does. */
  method Partition<T>(xs: seq<T>, size: nat) returns (batches: seq<seq<T>>)
    requires size > 0
    ensures batches == Batches(xs, size)
    ensures Flatten(batches) == xs
    ensures WellCut(batches, size)
    ensures |batches| == CeilDiv(|xs|, size)
  {
    batches := [];
    var i := 0;
    while i < |xs|
      invariant batches + Batches(xs[Min(i, |xs|)..], size) == Batches(xs, size)
    {
      var end := Min(i + size, |xs|);
      SliceStep(xs, i, size);
      batches := batches + [xs[i..end]];
      i := i + size;
    }
    assert xs[Min(i, |xs|)..] == [];
    BatchesProperties(xs, size);
  }

  /** One step of the loop takes the next slice off the reference cut. */
  lemma SliceStep<T>(xs: seq<T>, i: nat, size: nat)
    requires size > 0 && i < |xs|
    ensures Batches(xs[i..], size) == [xs[i..Min(i + size, |xs|)]] + Batches(xs[Min(i + size, |xs|)..], size)
  {
    var t := xs[i..];
    if |t| > size {
      assert t[..size] == xs[i..i + size];
      assert t[size..] == xs[i + size..];
    } else {
      assert t == xs[i..|xs|];
      assert xs[|xs|..] == [];
    }
  }

  /** Twelve clips in batches of five: two full batches and one of two. */
  lemma TwelveInFives<T>(xs: seq<T>)
    requires |xs| == 12
    ensures var bs := Batches(xs, DefaultBatchSize);
      |bs| == 3 && |bs[0]| == 5 && |bs[1]| == 5 && |bs[2]| == 2
  {
    BatchesProperties(xs, DefaultBatchSize);
    var bs := Batches(xs, DefaultBatchSize);
    assert bs[0] == xs[..5];
    assert Batches(xs[5..], 5)[0] == xs[5..][..5];
    assert Batches(xs[5..], 5)[1..] == Batches(xs[5..][5..], 5);
  }
}

=== FILE: clips.dfy ===
/**
 The clip records the catalog returns, the ascending-by-start-time sort the
 player pages apply to them, and the look-up by id the download page uses.
 */
module Clips {

  import opened Wrappers

  /**
   One catalog record (`_id`, `filename`, `url`, `date`, `fromtime`,
   `totime`). `start` is the instant the pages' sort comparator derives from
   `fromtime` (`new Date("1970-01-01T" + fromtime + "Z")`), in seconds.
   */
  datatype Clip = Clip(
    id: string,
    filename: string,
    url: string,
    date: string,
    fromtime: string,
    totime: string,
    start: nat)

  /** What one catalog query produced: a response body, or a thrown error's message. */
  datatype Fetch = Received(clips: seq<Clip>) | Failed(message: string)

  predicate SortedByStart(xs: seq<Clip>)
  {
    forall i, j :: 0 <= i < j < |xs| ==> xs[i].start <= xs[j].start
  }

  /** Places `c` before the first clip that does not start earlier. */
  function Insert(c: Clip, xs: seq<Clip>): (r: seq<Clip>)
    requires SortedByStart(xs)
    ensures SortedByStart(r)
    ensures multiset(r) == multiset(xs) + multiset{c}
    ensures |r| == |xs| + 1
    ensures r[0] == c || (|xs| > 0 && r[0] == xs[0])
  {
    if |xs| == 0 then [c]
    else if c.start <= xs[0].start then [c] + xs
    else
      var rest := Insert(c, xs[1..]);
      assert xs == [xs[0]] + xs[1..];
      SortedCons(xs[0], rest);
      assert multiset([xs[0]] + rest) == multiset{xs[0]} + multiset(rest);
      assert multiset(xs) == multiset{xs[0]} + multiset(xs[1..]);
      [xs[0]] + rest
  }

  /** A clip no later than the head of a sorted list can go in front of it. */
  lemma SortedCons(x: Clip, xs: seq<Clip>)
    requires SortedByStart(xs)
    requires |xs| > 0 ==> x.start <= xs[0].start
    ensures SortedByStart([x] + xs)
  {
    var r := [x] + xs;
    forall i, j | 0 <= i < j < |r| ensures r[i].start <= r[j].start {
      if i > 0 {
        assert r[i] == xs[i - 1] && r[j] == xs[j - 1];
      } else {
        assert r[j] == xs[j - 1];
      }
    }
  }

  /** `data.sort(byStart)`: the same clips, earliest start first. */
  function SortByStart(xs: seq<Clip>): (r: seq<Clip>)
    ensures SortedByStart(r)
    ensures multiset(r) == multiset(xs)
    ensures |r| == |xs|
  {
    if |xs| == 0 then []
    else
      assert xs == [xs[0]] + xs[1..];
      Insert(xs[0], SortByStart(xs[1..]))
  }

  /** The last clip of a sorted list is the most recent one. */
  lemma LastIsNewest(xs: seq<Clip>)
    requires SortedByStart(xs) && |xs| > 0
    ensures forall c :: c in xs ==> c.start <= xs[|xs| - 1].start
  {
  }

  /** `videoData.find(video => video._id === id)`: the first clip with that id. */
  function Find(xs: seq<Clip>, id: string): (r: Option<Clip>)
    ensures r.Some? ==> r.value in xs && r.value.id == id
    ensures r.None? <==> forall c :: c in xs ==> c.id != id
    ensures r.Some? ==> exists k :: 0 <= k < |xs| && xs[k] == r.value && forall j :: 0 <= j < k ==> xs[j].id != id
  {
    if |xs| == 0 then None
    else if xs[0].id == id then Some(xs[0])
    else
      var r := Find(xs[1..], id);
      assert forall c :: c in xs[1..] ==> c in xs;
      if r.Some? then FirstShift(xs, id, r.value); r else r
  }

  /** The first match in the tail, behind a head that does not match, is the first match. */
  lemma FirstShift(xs: seq<Clip>, id: string, v: Clip)
    requires |xs| > 0 && xs[0].id != id
    requires exists k :: 0 <= k < |xs[1..]| && xs[1..][k] == v && forall j :: 0 <= j < k ==> xs[1..][j].id != id
    ensures exists k :: 0 <= k < |xs| && xs[k] == v && forall j :: 0 <= j < k ==> xs[j].id != id
  {
    var k :| 0 <= k < |xs[1..]| && xs[1..][k] == v && forall j :: 0 <= j < k ==> xs[1..][j].id != id;
    assert xs[k + 1] == v;
    forall j | 0 <= j < k + 1 ensures xs[j].id != id {
      if j > 0 {
        assert xs[j] == xs[1..][j - 1];
      }
    }
  }

  /** The ids of a list of clips, in list order (`videoData.map(v => v._id)`). */
  function Ids(xs: seq<Clip>): (r: seq<string>)
    ensures |r| == |xs|
    ensures forall i :: 0 <= i < |xs| ==> r[i] == xs[i].id
  {
    if |xs| == 0 then [] else [xs[0].id] + Ids(xs[1..])
  }
}

=== FILE: clock.dfy ===
/**
 Times of day as the pages write them, `HH:MM:SS`: the player's
 `formatDisplayTime` (Home.jsx) and the reading of such a string back into
 seconds. The filters compare these strings with JavaScript's string `>`;
 `TimeOrder` shows that for well-formed times this is the order of the
 instants they denote.
 */
module Clock {

  import opened Wrappers
  import opened Text

  /** Whole seconds as `HH:MM:SS`, each field `padStart(2, "0")`-ed. */
  function FormatDisplayTime(seconds: nat): string
  {
    Field(seconds / 3600) + ":" + Field((seconds % 3600) / 60) + ":" + Field(seconds % 60)
  }

  /** One field of the display: two digits below 100, the plain decimal above. */
  function Field(n: nat): string
  {
    if n < 100 then Digits2(n) else NatToString(n)
  }

  /** `Field` is `String(n).padStart(2, "0")`. */
  lemma FieldIsPadded(n: nat)
    ensures Field(n) == Pad2(NatToString(n))
  {
    if n < 100 {
      TwoDigits(n);
    }
  }

  /**
   The display reads back as the seconds it was made from; below 100 hours it
   is exactly `HH:MM:SS` with minutes and seconds under 60.
   */
  lemma DisplayTimeReadsBack(seconds: nat)
    ensures ReadClock(FormatDisplayTime(seconds)) == Some(seconds)
    ensures seconds < 360000 ==> WellFormed(FormatDisplayTime(seconds)) && Seconds(FormatDisplayTime(seconds)) == seconds
  {
    var h, m, s := seconds / 3600, (seconds % 3600) / 60, seconds % 60;
    HoursMinutesSeconds(seconds);
    ReadFields(h, m, s);
    if seconds < 360000 {
      FixedWidthFields(h, m, s);
    }
  }

  lemma ReadFields(h: nat, m: nat, s: nat)
    ensures ReadClock(Field(h) + ":" + Field(m) + ":" + Field(s)) == Some(h * 3600 + m * 60 + s)
  {
    FieldValue(h);
    FieldValue(m);
    FieldValue(s);
    ReadDigits(Field(h) + ":" + Field(m) + ":" + Field(s), Field(h), Field(m), Field(s));
  }

  lemma FieldValue(n: nat)
    ensures |Field(n)| >= 1 && AllDigits(Field(n)) && Value(Field(n)) == n
    ensures n < 100 ==> |Field(n)| == 2
  {
    if n < 100 {
      Digits2Value(n);
    }
  }

  lemma ReadDigits(r: string, hs: string, ms: string, ss: string)
    requires r == hs + ":" + ms + ":" + ss
    requires |hs| >= 1 && |ms| >= 1 && |ss| >= 1
    requires AllDigits(hs) && AllDigits(ms) && AllDigits(ss)
    ensures ReadClock(r) == Some(Value(hs) * 3600 + Value(ms) * 60 + Value(ss))
  {
    ClockSplits(r, hs, ms, ss);
    ReadDigitParts(hs, ms, ss);
  }

  lemma ClockSplits(r: string, hs: string, ms: string, ss: string)
    requires r == hs + ":" + ms + ":" + ss
    requires AllDigits(hs) && AllDigits(ms) && AllDigits(ss)
    ensures Split(r, ':') == [hs, ms, ss]
  {
    DigitsLack(hs, ':');
    DigitsLack(ms, ':');
    DigitsLack(ss, ':');
    SplitJoin3(hs, ms, ss, ':');
  }

  lemma ReadDigitParts(hs: string, ms: string, ss: string)
    requires |hs| >= 1 && |ms| >= 1 && |ss| >= 1
    requires AllDigits(hs) && AllDigits(ms) && AllDigits(ss)
    ensures ReadParts([hs, ms, ss]) == Some(Value(hs) * 3600 + Value(ms) * 60 + Value(ss))
  {
    var parts := [hs, ms, ss];
    assert parts[0] == hs;
    assert parts[1] == ms;
    assert parts[2] == ss;
    assert ParseNat(hs) == Some(Value(hs));
    assert ParseNat(ms) == Some(Value(ms));
    assert ParseNat(ss) == Some(Value(ss));
  }

  lemma FixedWidthFields(h: nat, m: nat, s: nat)
    requires h < 100 && m < 60 && s < 60
    ensures WellFormed(Field(h) + ":" + Field(m) + ":" + Field(s))
    ensures Seconds(Field(h) + ":" + Field(m) + ":" + Field(s)) == h * 3600 + m * 60 + s
  {
    FieldValue(h);
    FieldValue(m);
    FieldValue(s);
    FixedWidthDigits(Field(h) + ":" + Field(m) + ":" + Field(s), Field(h), Field(m), Field(s));
  }

  lemma FixedWidthDigits(r: string, hs: string, ms: string, ss: string)
    requires r == hs + ":" + ms + ":" + ss
    requires |hs| == 2 && |ms| == 2 && |ss| == 2
    requires AllDigits(hs) && AllDigits(ms) && AllDigits(ss)
    requires Value(ms) < 60 && Value(ss) < 60
    ensures WellFormed(r) && Seconds(r) == Value(hs) * 3600 + Value(ms) * 60 + Value(ss)
  {
    assert r[0..2] == hs;
    assert r[3..5] == ms;
    assert r[6..8] == ss;
    assert r[2] == ':' && r[5] == ':';
  }

  /** The three display fields recompose the seconds; minutes and seconds stay below 60. */
  lemma HoursMinutesSeconds(seconds: nat)
    ensures (seconds / 3600) * 3600 + ((seconds % 3600) / 60) * 60 + seconds % 60 == seconds
    ensures (seconds % 3600) / 60 < 60 && seconds % 60 < 60
    ensures seconds < 360000 ==> seconds / 3600 < 100
  {
    var rem := seconds % 3600;
    assert seconds == (seconds / 3600) * 3600 + rem;
    assert rem == (rem / 60) * 60 + rem % 60;
    assert rem % 60 == seconds % 60;
  }

  /** Reads `H:M:S` (digit fields of any width) as seconds. */
  function ReadClock(t: string): Option<nat>
  {
    ReadParts(Split(t, ':'))
  }

  function ReadParts(parts: seq<string>): Option<nat>
  {
    if |parts| != 3 then None
    else
      var h, m, s := ParseNat(parts[0]), ParseNat(parts[1]), ParseNat(parts[2]);
      if h.Some? && m.Some? && s.Some? then Some(h.value * 3600 + m.value * 60 + s.value) else None
  }

  /** Exactly `HH:MM:SS` with minutes and seconds below 60. */
  predicate WellFormed(t: string)
  {
    && |t| == 8
    && t[2] == ':' && t[5] == ':'
    && AllDigits(t[0..2]) && AllDigits(t[3..5]) && AllDigits(t[6..8])
    && Value(t[3..5]) < 60 && Value(t[6..8]) < 60
  }

  /** The instant a well-formed time denotes, in seconds after midnight. */
  function Seconds(t: string): nat
    requires WellFormed(t)
  {
    Value(t[0..2]) * 3600 + Value(t[3..5]) * 60 + Value(t[6..8])
  }

  /** String order after a common-length prefix pair: compare the prefixes first. */
  lemma {:induction false} LessConcat(x1: string, y1: string, x2: string, y2: string)
    requires |x1| == |x2|
    ensures Less(x1 + y1, x2 + y2) <==> Less(x1, x2) || (x1 == x2 && Less(y1, y2))
    decreases |x1|
  {
    if |x1| == 0 {
      assert x1 + y1 == y1 && x2 + y2 == y2;
    } else {
      assert (x1 + y1)[0] == x1[0] && (x2 + y2)[0] == x2[0];
      assert (x1 + y1)[1..] == x1[1..] + y1 && (x2 + y2)[1..] == x2[1..] + y2;
      if x1[0] == x2[0] {
        LessConcat(x1[1..], y1, x2[1..], y2);
        assert x1 == x2 <==> x1[1..] == x2[1..] by {
          assert x1 == [x1[0]] + x1[1..] && x2 == [x2[0]] + x2[1..];
        }
      }
    }
  }

  /** On two-digit fields string order is numeric order, and equality is equal value. */
  lemma TwoDigitOrder(a: string, b: string)
    requires |a| == 2 && |b| == 2 && AllDigits(a) && AllDigits(b)
    ensures Less(a, b) <==> Value(a) < Value(b)
    ensures a == b <==> Value(a) == Value(b)
  {
    assert a[..1] == [a[0]] && b[..1] == [b[0]];
    assert a[..1][..0] == [] && b[..1][..0] == [];
    assert Value(a[..1]) == DigitValue(a[0]);
    assert Value(b[..1]) == DigitValue(b[0]);
    assert Value(a) == 10 * DigitValue(a[0]) + DigitValue(a[1]);
    assert Value(b) == 10 * DigitValue(b[0]) + DigitValue(b[1]);
    assert a[1..][1..] == [] && b[1..][1..] == [];
    assert Less(a[1..], b[1..]) <==> a[1] < b[1];
    assert a == [a[0], a[1]] && b == [b[0], b[1]];
  }

  /** The filters' string comparison of well-formed times is the order of the instants. */
  lemma TimeOrder(a: string, b: string)
    requires WellFormed(a) && WellFormed(b)
    ensures Less(a, b) <==> Seconds(a) < Seconds(b)
  {
    var a0, a1, a2 := a[0..2], a[3..5], a[6..8];
    var b0, b1, b2 := b[0..2], b[3..5], b[6..8];
    assert a == a0 + (":" + (a1 + (":" + a2)));
    assert b == b0 + (":" + (b1 + (":" + b2)));
    LessConcat(a0, ":" + (a1 + (":" + a2)), b0, ":" + (b1 + (":" + b2)));
    LessConcat(":", a1 + (":" + a2), ":", b1 + (":" + b2));
    LessConcat(a1, ":" + a2, b1, ":" + b2);
    LessConcat(":", a2, ":", b2);
    assert !Less(":", ":");
    TwoDigitOrder(a0, b0);
    TwoDigitOrder(a1, b1);
    TwoDigitOrder(a2, b2);
  }
}

=== FILE: eta.dfy ===
/**
 The download page's `formatTime`: a remaining-time estimate in seconds
 rendered as "Calculating...", "<s> seconds", "<m> min <s> sec" or
 "<h> hr <m> min". Seconds are JavaScript numbers; the model takes them as
 exact reals (NaN and Infinity are not modelled).
 */
module Eta {

  import opened Wrappers
  import opened Text

  const Calculating := "Calculating..."

  /** `Math.trunc`, which JavaScript's `%` uses. */
  function Trunc(x: real): int
  {
    if x >= 0.0 then x.Floor else -((-x).Floor)
  }

  /** JavaScript's `x % m` for m > 0: the remainder takes the sign of x. */
  function JsMod(x: real, m: real): real
    requires m > 0.0
  {
    x - m * (Trunc(x / m) as real)
  }

  function FormatTime(seconds: real): string
  {
    if seconds == 0.0 then Calculating
    else if seconds < 60.0 then IntToString(seconds.Floor) + " seconds"
    else if seconds < 3600.0 then
      IntToString((seconds / 60.0).Floor) + " min " + IntToString(JsMod(seconds, 60.0).Floor) + " sec"
    else
      IntToString((seconds / 3600.0).Floor) + " hr " + IntToString((JsMod(seconds, 3600.0) / 60.0).Floor) + " min"
  }

  /** Reads an ETA text back as a number of seconds; "Calculating..." reads as nothing. */
  function ReadEta(t: string): Option<nat>
  {
    ReadWords(Split(t, ' '))
  }

  function ReadWords(w: seq<string>): Option<nat>
  {
    if |w| == 2 && w[1] == "seconds" then ParseNat(w[0])
    else if |w| == 4 && w[1] == "min" && w[3] == "sec" then
      var m, s := ParseNat(w[0]), ParseNat(w[2]);
      if m.Some? && s.Some? then Some(m.value * 60 + s.value) else None
    else if |w| == 4 && w[1] == "hr" && w[3] == "min" then
      var h, m := ParseNat(w[0]), ParseNat(w[2]);
      if h.Some? && m.Some? then Some(h.value * 3600 + m.value * 60) else None
    else None
  }

  /**
   For whole seconds the text says how long is left: zero means the
   estimate is still being calculated; below a minute it is "<s> seconds",
   below an hour "<m> min <s> sec", and from an hour on "<h> hr <m> min".
   Read back, it is exact below an hour and to the minute (seconds dropped)
   from an hour on.
   */
  lemma FormatTimeReadsBack(n: nat)
    ensures n == 0 ==> FormatTime(n as real) == Calculating
    ensures 0 < n < 60 ==> FormatTime(n as real) == NatToString(n) + " seconds"
    ensures 60 <= n < 3600 ==> FormatTime(n as real) == NatToString(n / 60) + " min " + NatToString(n % 60) + " sec"
    ensures 3600 <= n ==> FormatTime(n as real) == NatToString(n / 3600) + " hr " + NatToString((n % 3600) / 60) + " min"
    ensures n > 0 ==> ReadEta(FormatTime(n as real)) == Some(if n < 3600 then n else n - n % 60)
  {
    if 0 < n < 60 {
      SecondsText(n);
      SecondsReadBack(n);
    } else if 60 <= n < 3600 {
      MinutesText(n);
      MinutesReadBack(n);
    } else if n >= 3600 {
      HoursText(n);
      HoursReadBack(n);
    }
  }

  lemma SecondsText(n: nat)
    requires 0 < n < 60
    ensures FormatTime(n as real) == NatToString(n) + " seconds"
  {
    assert (n as real).Floor == n;
  }

  lemma SecondsReadBack(n: nat)
    requires 0 < n < 60
    ensures ReadEta(FormatTime(n as real)) == Some(n)
  {
    var a := NatToString(n);
    var t := a + " seconds";
    SecondsText(n);
    DigitsLack(a, ' ');
    Split2(t, a, "seconds");
    ReadSeconds(t, a);
  }

  lemma MinutesReadBack(n: nat)
    requires 60 <= n < 3600
    ensures ReadEta(FormatTime(n as real)) == Some(n)
  {
    MinutesText(n);
    MinSecReads(FormatTime(n as real), NatToString(n / 60), NatToString(n % 60));
  }

  lemma MinutesText(n: nat)
    requires 60 <= n < 3600
    ensures FormatTime(n as real) == NatToString(n / 60) + " min " + NatToString(n % 60) + " sec"
  {
    var x := n as real;
    FloorDiv60(n);
    assert JsMod(x, 60.0) == (n % 60) as real;
    assert JsMod(x, 60.0).Floor == n % 60;
  }

  lemma MinSecReads(t: string, a: string, b: string)
    requires |a| >= 1 && AllDigits(a) && |b| >= 1 && AllDigits(b)
    requires t == a + " min " + b + " sec"
    ensures ReadEta(t) == Some(Value(a) * 60 + Value(b))
  {
    DigitWords(t, a, " min ", "min", b, " sec", "sec");
    ReadMinSec(t, a, b);
  }

  /** Two digit strings and two words that are free of spaces split back into the four words. */
  lemma DigitWords(t: string, a: string, su: string, u: string, b: string, sv: string, v: string)
    requires |a| >= 1 && AllDigits(a) && |b| >= 1 && AllDigits(b)
    requires su == " " + u + " " && sv == " " + v && ' ' !in u && ' ' !in v
    requires t == a + su + b + sv
    ensures Split(t, ' ') == [a, u, b, v]
  {
    DigitsLack(a, ' ');
    DigitsLack(b, ' ');
    assert t == a + " " + u + " " + b + " " + v;
    Split4(t, a, u, b, v);
  }

  lemma HoursReadBack(n: nat)
    requires n >= 3600
    ensures ReadEta(FormatTime(n as real)) == Some(n - n % 60)
  {
    HoursText(n);
    ToTheMinute(FormatTime(n as real), n);
  }

  lemma ToTheMinute(t: string, n: nat)
    requires t == NatToString(n / 3600) + " hr " + NatToString((n % 3600) / 60) + " min"
    ensures ReadEta(t) == Some(n - n % 60)
  {
    HrMinReads(t, NatToString(n / 3600), NatToString((n % 3600) / 60));
    HoursMinutes(n);
  }

  lemma HoursText(n: nat)
    requires n >= 3600
    ensures FormatTime(n as real) == NatToString(n / 3600) + " hr " + NatToString((n % 3600) / 60) + " min"
  {
    var x := n as real;
    var rem := n % 3600;
    FloorDiv3600(n);
    assert JsMod(x, 3600.0) == rem as real by {
      assert x == 3600.0 * ((n / 3600) as real) + rem as real;
    }
    FloorDiv60(rem);
    assert (JsMod(x, 3600.0) / 60.0).Floor == rem / 60;
    assert (x / 3600.0).Floor == n / 3600;
  }

  lemma HrMinReads(t: string, a: string, b: string)
    requires |a| >= 1 && AllDigits(a) && |b| >= 1 && AllDigits(b)
    requires t == a + " hr " + b + " min"
    ensures ReadEta(t) == Some(Value(a) * 3600 + Value(b) * 60)
  {
    DigitWords(t, a, " hr ", "hr", b, " min", "min");
    ReadHrMin(t, a, b);
  }

  /** Whole hours plus whole minutes of the rest: the seconds rounded down to the minute. */
  lemma HoursMinutes(n: nat)
    ensures (n / 3600) * 3600 + ((n % 3600) / 60) * 60 == n - n % 60
  {
    var h, rem := n / 3600, n % 3600;
    var m, sec := rem / 60, rem % 60;
    assert n == h * 3600 + rem;
    assert rem == m * 60 + sec;
    assert n == (h * 60 + m) * 60 + sec;
    assert n % 60 == sec;
  }

  /** A number of seconds only partly elapsed still shows as "0 seconds". */
  lemma UnderASecond(x: real)
    requires 0.0 < x < 1.0
    ensures FormatTime(x) == "0 seconds"
  {
    assert x.Floor == 0;
  }

  /** Dividing a whole number of seconds by 60 floors to integer division. */
  lemma FloorDiv60(n: nat)
    ensures ((n as real) / 60.0).Floor == n / 60
    ensures Trunc((n as real) / 60.0) == n / 60
  {
    var q, r := n / 60, n % 60;
    assert (n as real) == 60.0 * (q as real) + (r as real);
    assert (q as real) <= (n as real) / 60.0 < (q as real) + 1.0;
  }

  lemma FloorDiv3600(n: nat)
    ensures ((n as real) / 3600.0).Floor == n / 3600
    ensures Trunc((n as real) / 3600.0) == n / 3600
  {
    var q, r := n / 3600, n % 3600;
    assert (n as real) == 3600.0 * (q as real) + (r as real);
    assert (q as real) <= (n as real) / 3600.0 < (q as real) + 1.0;
  }

  lemma ReadSeconds(t: string, a: string)
    requires Split(t, ' ') == [a, "seconds"]
    requires |a| >= 1 && AllDigits(a)
    ensures ReadEta(t) == Some(Value(a))
  {
  }

  lemma ReadMinSec(t: string, a: string, b: string)
    requires Split(t, ' ') == [a, "min", b, "sec"]
    requires |a| >= 1 && AllDigits(a) && |b| >= 1 && AllDigits(b)
    ensures ReadEta(t) == Some(Value(a) * 60 + Value(b))
  {
    var w := [a, "min", b, "sec"];
    assert |w| != 2;
    assert ReadWords(w) == Some(Value(a) * 60 + Value(b));
  }

  lemma ReadHrMin(t: string, a: string, b: string)
    requires Split(t, ' ') == [a, "hr", b, "min"]
    requires |a| >= 1 && AllDigits(a) && |b| >= 1 && AllDigits(b)
    ensures ReadEta(t) == Some(Value(a) * 3600 + Value(b) * 60)
  {
    var w := [a, "hr", b, "min"];
    assert |w| != 2;
    assert w[1] != "min" by { assert w[1][0] != "min"[0]; }
    assert ReadWords(w) == Some(Value(a) * 3600 + Value(b) * 60);
  }

  lemma Split2(t: string, a: string, u: string)
    requires t == a + " " + u
    requires ' ' !in a && ' ' !in u
    ensures Split(t, ' ') == [a, u]
  {
    var xs := [a, u];
    assert xs[1..] == [u];
    assert Join(xs, ' ') == t;
    assert FreeOf(xs, ' ');
    SplitJoin(xs, ' ');
  }

  lemma Split4(t: string, a: string, u: string, b: string, v: string)
    requires t == a + " " + u + " " + b + " " + v
    requires ' ' !in a && ' ' !in u && ' ' !in b && ' ' !in v
    ensures Split(t, ' ') == [a, u, b, v]
  {
    var xs := [a, u, b, v];
    assert xs[1..] == [u, b, v];
    Join3(u, b, v, ' ');
    assert Join(xs, ' ') == t;
    assert FreeOf(xs, ' ');
    SplitJoin(xs, ' ');
  }
}

=== FILE: live.dfy ===
/**
 The live view (LivePreview.jsx): today's clips for one device, with the
 cursor on the newest after each refresh; at the end of a clip it moves on,
 or asks for a refresh when it is already on the newest. Changing device
 resets the view, and the live check decides whether the device counts as
 live.
 */
module Live {

  import opened Wrappers
  import opened Clips

  const NoVideosToday := "No videos found for today."
  const NotTransmitting := "Device is not currently transmitting live data."
  const FetchErrorPrefix := "Error fetching videos: "
  const StatusErrorPrefix := "Error checking live status: "

  const Checking := "Checking live status..."
  const IsLive := "Device is live"
  const Offline := "Device is offline"
  const ConnectionError := "Connection error"

  datatype State = State(
    device: string,
    videos: seq<Clip>,
    index: nat,
    live: bool,
    loading: bool,
    error: Option<string>,
    status: string)

  /** The cursor points at a clip whenever there is one. */
  predicate InBounds(s: State)
  {
    |s.videos| == 0 || s.index < |s.videos|
  }

  /**
   `fetchVideos`: a non-empty answer is sorted by start time, the cursor
   jumps to the newest clip and the error clears; an empty answer (or none)
   empties the list; a failure only reports, keeping list and cursor.
   */
  function Refresh(s: State, f: Fetch): (r: State)
    ensures r.device == s.device && r.live == s.live && r.loading == s.loading && r.status == s.status
    ensures f.Received? && |f.clips| > 0 ==>
      && SortedByStart(r.videos) && multiset(r.videos) == multiset(f.clips)
      && r.index == |f.clips| - 1 && r.error.None?
    ensures f.Received? && |f.clips| == 0 ==>
      r.videos == [] && r.index == s.index && r.error == Some(NoVideosToday)
    ensures f.Failed? ==>
      r.videos == s.videos && r.index == s.index && r.error == Some(FetchErrorPrefix + f.message)
  {
    match f
    case Received(clips) =>
      if |clips| > 0 then
        var sorted := SortByStart(clips);
        s.(videos := sorted, index := |sorted| - 1, error := None)
      else s.(error := Some(NoVideosToday), videos := [])
    case Failed(message) => s.(error := Some(FetchErrorPrefix + message))
  }

  /** What the end of a clip leads to: the next state, and whether a refresh is asked for. */
  datatype EndStep = EndStep(next: State, refresh: bool)

  /** `handleVideoEnd` */
  function VideoEnd(s: State): (r: EndStep)
    ensures s.index < |s.videos| - 1 ==> r.next == s.(index := s.index + 1) && !r.refresh
    ensures s.index >= |s.videos| - 1 ==> r.next == s && r.refresh
  {
    if s.index < |s.videos| - 1 then EndStep(s.(index := s.index + 1), false)
    else EndStep(s, true)
  }

  /** `handleDeviceChange`, up to the live check it starts. */
  function DeviceChange(s: State, device: string): (r: State)
    ensures r.device == device && r.loading && !r.live && r.videos == [] && r.index == 0
    ensures r.error == s.error && r.status == s.status
  {
    s.(device := device, loading := true, live := false, videos := [], index := 0)
  }

  /** The check-live endpoint's answer, or the message of the error it threw. */
  datatype LiveAnswer = Answer(isLive: bool) | Unreachable(message: string)

  /** `checkDeviceLiveStatus`: the next state, and whether it starts a fetch. */
  datatype StatusStep = StatusStep(next: State, fetch: bool)

  function LiveStatus(s: State, a: LiveAnswer): (r: StatusStep)
    ensures !r.next.loading
    ensures r.next.live <==> a.Answer? && a.isLive
    ensures r.fetch <==> r.next.live
    ensures r.next.videos == s.videos && r.next.index == s.index && r.next.device == s.device
    ensures r.next.live ==> r.next.status == IsLive && r.next.error == s.error
    ensures a == Answer(false) ==> r.next.status == Offline && r.next.error == Some(NotTransmitting)
    ensures a.Unreachable? ==> r.next.status == ConnectionError && r.next.error == Some(StatusErrorPrefix + a.message)
  {
    var checking := s.(status := Checking);
    var settled :=
      match a
      case Answer(isLive) =>
        if isLive then StatusStep(checking.(live := true, status := IsLive), true)
        else StatusStep(checking.(live := false, status := Offline, error := Some(NotTransmitting)), false)
      case Unreachable(message) =>
        StatusStep(checking.(live := false, error := Some(StatusErrorPrefix + message), status := ConnectionError), false);
    settled.(next := settled.next.(loading := false))
  }

  /**
   Whether the `<video>` element is mounted: the page renders only a loading
   screen while loading, and the player only while live.
   */
  predicate Mounted(s: State)
  {
    s.live && !s.loading
  }

  /**
   The src effect: the current clip's URL is loaded only when the video
   element is mounted, the list is non-empty and the cursor is inside it.
   */
  function Load(s: State): (r: Option<string>)
    ensures r.Some? <==> s.live && !s.loading && 0 < |s.videos| && s.index < |s.videos|
    ensures r.Some? ==> r.value == s.videos[s.index].url
  {
    if Mounted(s) && |s.videos| > 0 && s.index < |s.videos| then Some(s.videos[s.index].url) else None
  }

  /** Every transition keeps the cursor on a clip whenever there is one. */
  lemma TransitionsKeepBounds(s: State, f: Fetch, device: string, a: LiveAnswer)
    requires InBounds(s)
    ensures InBounds(Refresh(s, f))
    ensures InBounds(VideoEnd(s).next)
    ensures InBounds(DeviceChange(s, device))
    ensures InBounds(LiveStatus(s, a).next)
  {
  }

  /**
   After a non-empty refresh of a mounted view, the view loads the newest
   clip of the answer.
   */
  lemma RefreshLoadsNewest(s: State, clips: seq<Clip>)
    requires s.live && !s.loading
    requires |clips| > 0
    ensures var r := Refresh(s, Received(clips));
      exists c :: c in clips && Load(r) == Some(c.url) && forall d :: d in clips ==> d.start <= c.start
  {
    var r := Refresh(s, Received(clips));
    var c := r.videos[|r.videos| - 1];
    LastIsNewest(r.videos);
    assert c in multiset(clips);
    forall d | d in clips ensures d.start <= c.start {
      assert d in multiset(r.videos);
    }
  }

  /**
   At the newest clip the end of playback asks for a refresh; if the refresh
   brings clips the cursor is then on the newest of them.
   */
  lemma EndAtNewestRefreshes(s: State, clips: seq<Clip>)
    requires |s.videos| > 0 && s.index == |s.videos| - 1 && |clips| > 0
    ensures VideoEnd(s).refresh
    ensures Refresh(VideoEnd(s).next, Received(clips)).index == |clips| - 1
  {
  }

  /** Nothing is loaded between a device change and the next successful refresh. */
  lemma DeviceChangeLoadsNothing(s: State, device: string, a: LiveAnswer)
    ensures Load(DeviceChange(s, device)) == None
    ensures Load(LiveStatus(DeviceChange(s, device), a).next) == None
  {
  }
}

=== FILE: player.dfy ===
/**
 The archive player (Home.jsx): a cursor over the fetched clips that
 advances at the end of each clip and wraps to the first, a slider that
 jumps to any clip, the fetch that replaces the list, and the preload of
 the following clip.
 */
module Player {

  import opened Wrappers
  import opened Clips
  import Validation
  import Clock
  import Arith

  const NoVideos := "No videos found for the selected criteria."

  datatype State = State(
    videos: seq<Clip>,
    index: nat,
    playing: bool,
    loading: bool,
    error: Option<string>,
    errors: Validation.Errors)

  /** The cursor points at a clip whenever there is one. */
  predicate InBounds(s: State)
  {
    |s.videos| == 0 || s.index < |s.videos|
  }

  /** `handleVideoEnd`: next clip, or back to the first after the last. */
  function VideoEnd(s: State): (r: State)
    ensures r == s.(index := r.index, playing := true)
    ensures s.index < |s.videos| - 1 ==> r.index == s.index + 1
    ensures s.index >= |s.videos| - 1 ==> r.index == 0
  {
    if s.index < |s.videos| - 1 then s.(index := s.index + 1, playing := true)
    else s.(index := 0, playing := true)
  }

  /** `handleSliderChange`: jump to the slider's value and play. */
  function SliderChange(s: State, value: nat): (r: State)
    ensures r == s.(index := value, playing := true)
  {
    s.(index := value, playing := true)
  }

  /**
   Clip end and a slider value from the slider's range (0 to length - 1)
   keep a cursor that points at a clip pointing at a clip.
   */
  lemma CursorStaysInBounds(s: State, value: nat)
    requires InBounds(s)
    ensures InBounds(VideoEnd(s))
    ensures value < |s.videos| ==> InBounds(SliderChange(s, value))
  {
  }

  /** `n` clip ends in a row. */
  function Ends(s: State, n: nat): State
  {
    if n == 0 then s else VideoEnd(Ends(s, n - 1))
  }

  /**
   Playing on wraps around: after `n` clip ends the cursor is `n` clips
   further modulo the length, so every clip comes round again.
   */
  lemma {:induction false} EndsWrapAround(s: State, n: nat)
    requires 0 < |s.videos| && s.index < |s.videos|
    ensures Ends(s, n).videos == s.videos
    ensures Ends(s, n).index == (s.index + n) % |s.videos|
    decreases n
  {
    if n == 0 {
      Arith.DivUnique(s.index, |s.videos|, 0, s.index);
    } else {
      EndsWrapAround(s, n - 1);
      Arith.ModStep(s.index + n - 1, |s.videos|);
    }
  }

  /**
   `fetchVideos`: a non-empty answer is sorted by start time, the cursor goes
   to the first clip and playback starts; an empty answer or a failure
   empties the list and shows the error, leaving the cursor where it was.
   */
  function Fetched(s: State, f: Fetch): (r: State)
    ensures !r.loading && r.errors == s.errors
    ensures f.Received? && |f.clips| > 0 ==>
      && SortedByStart(r.videos) && multiset(r.videos) == multiset(f.clips)
      && r.index == 0 && r.playing && r.error.None?
    ensures f.Received? && |f.clips| == 0 ==>
      r.videos == [] && r.error == Some(NoVideos) && r.index == s.index && r.playing == s.playing
    ensures f.Failed? ==>
      r.videos == [] && r.error == Some(f.message) && r.index == s.index && r.playing == s.playing
  {
    var started := s.(loading := true, error := None);
    var settled :=
      match f
      case Received(clips) =>
        if |clips| == 0 then started.(error := Some(NoVideos), videos := [])
        else started.(videos := SortByStart(clips), index := 0, playing := true)
      case Failed(message) => started.(error := Some(message), videos := []);
    settled.(loading := false)
  }

  /** After a successful fetch the player shows the earliest clip of the answer. */
  lemma FetchShowsEarliest(s: State, clips: seq<Clip>)
    requires |clips| > 0
    ensures InBounds(Fetched(s, Received(clips)))
    ensures var r := Fetched(s, Received(clips));
      Current(r).Some? && Current(r).value in clips
      && forall c :: c in clips ==> Current(r).value.start <= c.start
  {
    var r := Fetched(s, Received(clips));
    assert r.videos[0] in multiset(clips);
    forall c | c in clips ensures r.videos[0].start <= c.start {
      assert c in multiset(r.videos);
    }
  }

  /** Every fetch outcome leaves the cursor pointing at a clip, if there is one. */
  lemma FetchKeepsBounds(s: State, f: Fetch)
    requires InBounds(s)
    ensures InBounds(Fetched(s, f))
  {
  }

  /** `videoData[currentVideoIndex] || null` */
  function Current(s: State): (r: Option<Clip>)
    ensures r.Some? <==> s.index < |s.videos|
    ensures r.Some? ==> r.value == s.videos[s.index]
  {
    if s.index < |s.videos| then Some(s.videos[s.index]) else None
  }

  /**
   The preload effect: the following clip is fetched ahead only when the
   cursor is before the last clip, so the clip it names always exists.
   */
  function Preload(s: State): (r: Option<Clip>)
    ensures r.Some? <==> s.index + 1 < |s.videos|
    ensures r.Some? ==> r.value == s.videos[s.index + 1]
  {
    if |s.videos| > 0 && s.index < |s.videos| - 1 then Some(s.videos[s.index + 1]) else None
  }

  /** The clip preloaded is the one the next clip end plays. */
  lemma PreloadIsNext(s: State)
    requires Preload(s).Some?
    ensures Current(VideoEnd(s)) == Preload(s)
  {
  }

  /**
   `handleFilter`: validation records its errors, and only a valid filter
   triggers the fetch.
   */
  function ApplyFilter(s: State, filter: Validation.Filter, answer: Fetch): (r: State)
    ensures r.errors == Validation.ValidatePlayer(filter).errors
    ensures !Validation.ValidatePlayer(filter).ok ==> r == s.(errors := r.errors)
    ensures Validation.ValidatePlayer(filter).ok ==> r == Fetched(s.(errors := r.errors), answer)
  {
    var v := Validation.ValidatePlayer(filter);
    var checked := s.(errors := v.errors);
    if v.ok then Fetched(checked, answer) else checked
  }

  /**
   For stored dates and `HH:MM:SS` times the filter gates the query: a
   from-date later than the to-date, or a from-time later than the to-time,
   is recorded and nothing is fetched, so list, cursor, playback and the
   shown error stay as they were; otherwise the errors clear and the fetch's
   answer is applied.
   */
  lemma FilterGatesFetch(s: State, device: string, from: Validation.CalendarDate, to: Validation.CalendarDate,
                         fromTime: string, toTime: string, answer: Fetch)
    requires Validation.ValidDate(from) && Validation.ValidDate(to)
    requires Clock.WellFormed(fromTime) && Clock.WellFormed(toTime)
    ensures var f := Validation.Filter(device, Validation.StoredDate(from), Validation.StoredDate(to), fromTime, toTime);
      var r := ApplyFilter(s, f, answer);
      && (r.errors.date <==> Validation.Later(from, to))
      && (r.errors.time <==> Clock.Seconds(toTime) < Clock.Seconds(fromTime))
      && (Validation.Later(from, to) || Clock.Seconds(toTime) < Clock.Seconds(fromTime) ==>
            && r.videos == s.videos && r.index == s.index && r.playing == s.playing
            && r.loading == s.loading && r.error == s.error)
      && (!Validation.Later(from, to) && Clock.Seconds(fromTime) <= Clock.Seconds(toTime) ==>
            r == Fetched(s.(errors := Validation.Errors(false, false)), answer))
  {
    var f := Validation.Filter(device, Validation.StoredDate(from), Validation.StoredDate(to), fromTime, toTime);
    Validation.VerdictMeaning(from, to, fromTime, toTime);
    assert Validation.ValidatePlayer(f) == Validation.ValidatePlayer(f.(device := ""));
  }
}

=== FILE: run.dfy ===
/**
 The download page's `handleDownloadAll`: refuse an empty selection, then
 prepare the selected clips, estimate the total size, download them in
 batches of five into the archive, build the ZIP and report.
 */
module DownloadRun {

  import opened Wrappers
  import opened Text
  import opened Clips
  import opened Selection
  import opened Transfer
  import Batching
  import Accounting

  const EmptyWarning := "Please select at least one video to download"
  const RunError := "Error during download process. Some files may not have been downloaded."

  /** The size `handleDownloadAll` assumes for every clip before any is fetched: 5 MiB. */
  const AssumedClipSize := 5 * 1024 * 1024

  /** The steps of the page's stepper (`activeStep`) a run can end on. */
  const ZipStep := 2
  const CompleteStep := 3

  /** The page state a run reads and writes. */
  datatype Page = Page(
    downloading: bool,
    step: nat,
    totalBatches: nat,
    currentBatch: nat,
    processed: nat,
    totalSize: nat,
    failures: seq<Accounting.FailureRecord>,
    archive: map<string, Payload>,
    notice: string,
    dialogOpen: bool)

  /** The result of downloading each clip, in order. */
  function Outcomes(cs: seq<Clip>, net: Clip -> Response): (r: seq<Outcome>)
    ensures |r| == |cs|
    ensures forall i :: 0 <= i < |cs| ==> r[i] == Download(cs[i], net(cs[i]))
  {
    if |cs| == 0 then [] else [Download(cs[0], net(cs[0]))] + Outcomes(cs[1..], net)
  }

  function BatchOutcomes(bs: seq<seq<Clip>>, net: Clip -> Response): (r: seq<seq<Outcome>>)
    ensures |r| == |bs|
  {
    if |bs| == 0 then [] else [Outcomes(bs[0], net)] + BatchOutcomes(bs[1..], net)
  }

  /** Downloading batch by batch yields the results of downloading the clips in order. */
  lemma {:induction false} BatchOutcomesFlatten(bs: seq<seq<Clip>>, net: Clip -> Response)
    ensures Batching.Flatten(BatchOutcomes(bs, net)) == Outcomes(Batching.Flatten(bs), net)
    decreases |bs|
  {
    if |bs| > 0 {
      BatchOutcomesFlatten(bs[1..], net);
      OutcomesAppend(bs[0], Batching.Flatten(bs[1..]), net);
    }
  }

  lemma OutcomesAppend(a: seq<Clip>, b: seq<Clip>, net: Clip -> Response)
    ensures Outcomes(a + b, net) == Outcomes(a, net) + Outcomes(b, net)
  {
    assert forall i :: 0 <= i < |a + b| ==> Outcomes(a + b, net)[i] == (Outcomes(a, net) + Outcomes(b, net))[i];
  }

  /**
   Which log decides whether the failure dialog opens once the archive is
   built. The page reads `failedDownloads` through the closure of the click
   that started the run, so it sees the log as it was before the run reset
   and refilled it.
   */
  datatype DialogRule =
    | AsWritten  // the log before the run, as the page does
    | Intended   // the log this run filled

  function DialogAfter(rule: DialogRule, open: bool, logBeforeRun: seq<Accounting.FailureRecord>,
                       logOfRun: seq<Accounting.FailureRecord>): bool
  {
    match rule
    case AsWritten => if |logBeforeRun| > 0 then true else open
    case Intended => if |logOfRun| > 0 then true else open
  }

  /**
   `handleDownloadAll`; with `AsWritten` it is the page. Whether the ZIP
   generation succeeded is decided outside the page (JSZip).
   */
  function DownloadAll(p: Page, sel: seq<string>, videos: seq<Clip>, net: Clip -> Response, zipOk: bool, rule: DialogRule): Page
  {
    if |sel| == 0 then p.(notice := EmptyWarning)
    else Process(p, Prepare(sel, videos), net, zipOk, rule)
  }

  /** Steps two to four for the prepared clips. */
  function Process(p: Page, prepared: seq<Clip>, net: Clip -> Response, zipOk: bool, rule: DialogRule): Page
  {
    var batches := Batching.Batches(prepared, Batching.DefaultBatchSize);
    Report(p, |prepared|, |batches|, Accounting.RunBatches(Accounting.Empty, BatchOutcomes(batches, net)), zipOk, rule)
  }

  function Report(p: Page, n: nat, batchCount: nat, t: Accounting.Tally, zipOk: bool, rule: DialogRule): Page
  {
    var after := p.(
      downloading := false,
      totalBatches := batchCount,
      currentBatch := batchCount,
      processed := t.processed,
      totalSize := n * AssumedClipSize,
      failures := t.failures,
      archive := t.archive);
    if zipOk then
      after.(
        step := CompleteStep,
        notice := Summary(t.downloaded, n),
        dialogOpen := DialogAfter(rule, p.dialogOpen, p.failures, t.failures))
    else
      after.(step := ZipStep, notice := RunError, dialogOpen := true)
  }

  /** `Successfully downloaded ${totalDownloaded} videos of ${n}` */
  function Summary(downloaded: nat, n: nat): string
  {
    "Successfully downloaded " + NatToString(downloaded) + " videos of " + NatToString(n)
  }

  /** An empty selection only posts the warning; nothing else on the page changes. */
  lemma EmptySelectionWarns(p: Page, videos: seq<Clip>, net: Clip -> Response, zipOk: bool, rule: DialogRule)
    ensures DownloadAll(p, [], videos, net, zipOk, rule) == p.(notice := EmptyWarning)
  {
  }

  /**
   What a run does with a non-empty selection: the page ends idle, with the
   size estimate, ceil(n / 5) batches, one processed tick per prepared clip,
   every success or failure accounted for, the archive holding each name's
   last success, and the report or the error. As written, the dialog opens
   after a built archive only if it was open or the log from before the run
   was non-empty.
   */
  lemma DownloadAllMeaning(p: Page, sel: seq<string>, videos: seq<Clip>, net: Clip -> Response, zipOk: bool, rule: DialogRule)
    requires |sel| > 0
    ensures var prepared := Prepare(sel, videos);
      var os := Outcomes(prepared, net);
      var r := DownloadAll(p, sel, videos, net, zipOk, rule);
      && !r.downloading
      && r.totalSize == |prepared| * 5 * 1024 * 1024
      && r.totalBatches == Batching.CeilDiv(|prepared|, Batching.DefaultBatchSize)
      && r.processed == |prepared|
      && r.failures == Accounting.FailuresOf(os)
      && Accounting.Successes(os) + |r.failures| == |prepared|
      && (forall name :: Accounting.Lookup(r.archive, name) == Accounting.LastStored(os, name))
      && (zipOk ==> r.step == CompleteStep && r.notice == Summary(Accounting.Successes(os), |prepared|))
      && (zipOk && rule == AsWritten ==> (r.dialogOpen <==> p.dialogOpen || |p.failures| > 0))
      && (zipOk && rule == Intended ==> (r.dialogOpen <==> p.dialogOpen || |r.failures| > 0))
      && (!zipOk ==> r.step == ZipStep && r.notice == RunError && r.dialogOpen)
  {
    ProcessMeaning(p, Prepare(sel, videos), net, zipOk, rule);
  }

  lemma ProcessMeaning(p: Page, prepared: seq<Clip>, net: Clip -> Response, zipOk: bool, rule: DialogRule)
    ensures var os := Outcomes(prepared, net);
      var r := Process(p, prepared, net, zipOk, rule);
      && !r.downloading
      && r.totalSize == |prepared| * 5 * 1024 * 1024
      && r.totalBatches == Batching.CeilDiv(|prepared|, Batching.DefaultBatchSize)
      && r.processed == |prepared|
      && r.failures == Accounting.FailuresOf(os)
      && Accounting.Successes(os) + |r.failures| == |prepared|
      && (forall name :: Accounting.Lookup(r.archive, name) == Accounting.LastStored(os, name))
      && (zipOk ==> r.step == CompleteStep && r.notice == Summary(Accounting.Successes(os), |prepared|))
      && (zipOk && rule == AsWritten ==> (r.dialogOpen <==> p.dialogOpen || |p.failures| > 0))
      && (zipOk && rule == Intended ==> (r.dialogOpen <==> p.dialogOpen || |r.failures| > 0))
      && (!zipOk ==> r.step == ZipStep && r.notice == RunError && r.dialogOpen)
  {
    var batches := Batching.Batches(prepared, Batching.DefaultBatchSize);
    var bos := BatchOutcomes(batches, net);
    Batching.BatchesProperties(prepared, Batching.DefaultBatchSize);
    BatchOutcomesFlatten(batches, net);
    Accounting.RunMeaning(bos);
    Accounting.SuccessesPlusFailures(Outcomes(prepared, net));
    ReportMeaning(p, |prepared|, |batches|, Accounting.RunBatches(Accounting.Empty, bos), zipOk, rule);
  }

  /** The fields `Report` sets, read back for the two lemmas above. */
  lemma ReportMeaning(p: Page, n: nat, batchCount: nat, t: Accounting.Tally, zipOk: bool, rule: DialogRule)
    ensures var r := Report(p, n, batchCount, t, zipOk, rule);
      && !r.downloading
      && r.totalSize == n * 5 * 1024 * 1024
      && r.totalBatches == batchCount
      && r.processed == t.processed
      && r.failures == t.failures
      && r.archive == t.archive
      && (zipOk ==> r.step == CompleteStep && r.notice == Summary(t.downloaded, n))
      && (zipOk && rule == AsWritten ==> (r.dialogOpen <==> p.dialogOpen || |p.failures| > 0))
      && (zipOk && rule == Intended ==> (r.dialogOpen <==> p.dialogOpen || |t.failures| > 0))
      && (!zipOk ==> r.step == ZipStep && r.notice == RunError && r.dialogOpen)
  {
  }

  /** Every selected id with a listed clip is downloaded exactly once, in selection order. */
  lemma EverySelectedClipOnce(sel: seq<string>, videos: seq<Clip>)
    requires Distinct(sel) && forall id :: id in sel ==> Find(videos, id).Some?
    ensures Ids(Prepare(sel, videos)) == sel
    ensures Distinct(Prepare(sel, videos))
  {
    PrepareDistinct(sel, videos);
  }

  /** A run logs a failure exactly when the download of some prepared clip fails. */
  lemma FailureLogged(cs: seq<Clip>, net: Clip -> Response)
    ensures |Accounting.FailuresOf(Outcomes(cs, net))| > 0 <==> exists c :: c in cs && !net(c).Ok?
  {
    var os := Outcomes(cs, net);
    Accounting.FailuresNonEmpty(os);
    if |Accounting.FailuresOf(os)| > 0 {
      var i :| 0 <= i < |os| && os[i].Failure?;
      assert cs[i] in cs && !net(cs[i]).Ok?;
    }
    if exists c :: c in cs && !net(c).Ok? {
      var c :| c in cs && !net(c).Ok?;
      var i :| 0 <= i < |cs| && cs[i] == c;
      assert os[i].Failure?;
    }
  }

  /**
   With the intended check, a run whose archive is built opens the dialog
   exactly when it was open or the download of some prepared clip failed.
   */
  lemma FailureOpensDialog(p: Page, sel: seq<string>, videos: seq<Clip>, net: Clip -> Response)
    requires |sel| > 0
    ensures DownloadAll(p, sel, videos, net, true, Intended).dialogOpen
            <==> p.dialogOpen || exists c :: c in Prepare(sel, videos) && !net(c).Ok?
  {
    DownloadAllMeaning(p, sel, videos, net, true, Intended);
    FailureLogged(Prepare(sel, videos), net);
  }

  /**
   The page as written: a first run, with the dialog closed and no earlier
   failures, in which the one selected clip fails to download logs the
   failure but leaves the dialog closed. The intended check opens it.
   */
  lemma StaleDialogMissesFailure(p: Page, c: Clip, net: Clip -> Response)
    requires p.failures == [] && !p.dialogOpen && !net(c).Ok?
    ensures var r := DownloadAll(p, [c.id], [c], net, true, AsWritten);
      |r.failures| == 1 && !r.dialogOpen
    ensures DownloadAll(p, [c.id], [c], net, true, Intended).dialogOpen
  {
    assert Prepare([c.id], [c]) == [c];
    DownloadAllMeaning(p, [c.id], [c], net, true, AsWritten);
    FailureOpensDialog(p, [c.id], [c], net);
    var os := Outcomes([c], net);
    assert os[..0] == [];
    assert |Accounting.FailuresOf(os)| == 1;
  }
}

=== FILE: selection.dfy ===
/**
 The download page's selection of clips (`selectedVideos`, a JavaScript
 `Set` of ids) and the prepare step of `handleDownloadAll`. A `Set`
 iterates in insertion order and `Array.from` keeps that order, so the
 selection is modelled as a duplicate-free sequence in insertion order.
 */
module Selection {

  import opened Wrappers
  import opened Clips

  predicate Distinct<T(==)>(xs: seq<T>)
  {
    forall i, j :: 0 <= i < j < |xs| ==> xs[i] != xs[j]
  }

  /** `set.delete(id)`: the remaining ids keep their order. */
  function Remove(sel: seq<string>, id: string): (r: seq<string>)
    ensures forall x :: x in r <==> x in sel && x != id
    ensures |r| <= |sel|
    ensures Distinct(sel) ==> Distinct(r)
    ensures id !in sel ==> r == sel
    ensures Distinct(sel) && id in sel ==> |r| == |sel| - 1
    ensures Distinct(sel) && id in sel ==> CutAt(sel, id, r)
  {
    if |sel| == 0 then []
    else
      var rest := Remove(sel[1..], id);
      var r := if sel[0] == id then rest else [sel[0]] + rest;
      RemoveStep(sel, id, rest, r);
      r
  }

  /** `r` is `sel` with the id cut out at one position, the rest in order. */
  predicate CutAt(sel: seq<string>, id: string, r: seq<string>)
  {
    exists k :: 0 <= k < |sel| && sel[k] == id && r == sel[..k] + sel[k + 1..]
  }

  /** One step of `Remove`: from what holds of the tail to what holds of the whole. */
  lemma RemoveStep(sel: seq<string>, id: string, rest: seq<string>, r: seq<string>)
    requires |sel| > 0 && rest == Remove(sel[1..], id)
    requires r == if sel[0] == id then rest else [sel[0]] + rest
    ensures forall x :: x in r <==> x in sel && x != id
    ensures |r| <= |sel|
    ensures Distinct(sel) ==> Distinct(r)
    ensures id !in sel ==> r == sel
    ensures Distinct(sel) && id in sel ==> |r| == |sel| - 1
    ensures Distinct(sel) && id in sel ==> CutAt(sel, id, r)
  {
    assert sel == [sel[0]] + sel[1..];
    assert forall x :: x in sel <==> x == sel[0] || x in sel[1..];
    if sel[0] == id {
      assert sel[..0] + sel[1..] == sel[1..];
    } else if Distinct(sel) {
      DistinctCons(sel[0], rest);
      if id in sel {
        CutPastHead(sel, id, rest);
      }
    }
  }

  /** Cutting the id out of the tail, then putting back the head, cuts it out of the whole. */
  lemma CutPastHead(sel: seq<string>, id: string, rest: seq<string>)
    requires |sel| > 0 && sel[0] != id && CutAt(sel[1..], id, rest)
    ensures CutAt(sel, id, [sel[0]] + rest)
  {
    var k :| 0 <= k < |sel| - 1 && sel[1..][k] == id && rest == sel[1..][..k] + sel[1..][k + 1..];
    assert [sel[0]] + rest == sel[..k + 1] + sel[k + 2..];
  }

  lemma DistinctCons<T>(x: T, xs: seq<T>)
    requires x !in xs && Distinct(xs)
    ensures Distinct([x] + xs)
  {
    forall i, j | 0 <= i < j < |xs| + 1 ensures ([x] + xs)[i] != ([x] + xs)[j] {
      if i > 0 {
        assert ([x] + xs)[i] == xs[i - 1];
      }
    }
  }

  /** `handleCheckboxChange`: remove the id when present, otherwise add it at the end. */
  function Toggle(sel: seq<string>, id: string): (r: seq<string>)
    requires Distinct(sel)
    ensures Distinct(r)
    ensures id in r <==> id !in sel
    ensures forall x :: x != id ==> (x in r <==> x in sel)
    ensures id !in sel ==> r == sel + [id]
    ensures id in sel ==> CutAt(sel, id, r)
  {
    if id in sel then Remove(sel, id) else sel + [id]
  }

  /**
   Toggling the same id twice restores the selection as a set; when the id
   was absent it restores the very sequence.
   */
  lemma ToggleTwice(sel: seq<string>, id: string)
    requires Distinct(sel)
    ensures forall x :: x in Toggle(Toggle(sel, id), id) <==> x in sel
    ensures id !in sel ==> Toggle(Toggle(sel, id), id) == sel
  {
    if id !in sel {
      RemoveLast(sel, id);
    }
  }

  lemma {:induction false} RemoveLast(sel: seq<string>, id: string)
    requires id !in sel
    ensures Remove(sel + [id], id) == sel
    decreases |sel|
  {
    if |sel| == 0 {
      assert Remove([id], id) == Remove([], id);
    } else {
      assert (sel + [id])[1..] == sel[1..] + [id];
      RemoveLast(sel[1..], id);
      assert sel == [sel[0]] + sel[1..];
    }
  }

  /** `new Set(list)`: the first occurrence of each element, in order. */
  function Dedup(xs: seq<string>): (r: seq<string>)
    ensures Distinct(r)
    ensures forall x :: x in r <==> x in xs
    ensures |r| <= |xs|
    ensures Distinct(xs) ==> r == xs
  {
    if |xs| == 0 then []
    else
      var prefix := Dedup(xs[..|xs| - 1]);
      var last := xs[|xs| - 1];
      assert forall x :: x in xs <==> x in xs[..|xs| - 1] || x == last by {
        assert xs == xs[..|xs| - 1] + [last];
      }
      if last in prefix then prefix
      else
        assert Distinct(xs) ==> prefix == xs[..|xs| - 1] && last !in xs[..|xs| - 1];
        assert Distinct(xs) ==> prefix + [last] == xs;
        prefix + [last]
  }

  /**
   `handleSelectAll`: clear the selection when it has as many ids as there
   are clips, otherwise select every listed clip's id.
   */
  function SelectAll(sel: seq<string>, videos: seq<Clip>): (r: seq<string>)
    ensures |sel| == |videos| ==> r == []
    ensures |sel| != |videos| ==> Distinct(r) && forall x :: x in r <==> exists c :: c in videos && c.id == x
  {
    if |sel| == |videos| then []
    else
      var ids := Dedup(Ids(videos));
      assert forall x :: x in Ids(videos) <==> exists c :: c in videos && c.id == x by {
        forall x | x in Ids(videos) ensures exists c :: c in videos && c.id == x {
          var i :| 0 <= i < |videos| && Ids(videos)[i] == x;
          assert videos[i] in videos;
        }
        forall x | exists c :: c in videos && c.id == x ensures x in Ids(videos) {
          var c :| c in videos && c.id == x;
          var i :| 0 <= i < |videos| && videos[i] == c;
          assert Ids(videos)[i] == x;
        }
      }
      ids
  }

  /**
   With distinct clip ids, select-all picks every id in list order, and a
   second select-all clears it again.
   */
  lemma SelectAllTwice(sel: seq<string>, videos: seq<Clip>)
    requires Distinct(Ids(videos)) && |sel| != |videos|
    ensures SelectAll(sel, videos) == Ids(videos)
    ensures SelectAll(SelectAll(sel, videos), videos) == []
  {
  }

  /**
   The clear branch looks only at sizes: a selection of as many ids as there
   are clips is cleared even when none of its ids is listed.
   */
  lemma ClearsOnSizeAlone(videos: seq<Clip>)
    requires |videos| > 0
    ensures var stale := Ids(videos) + ["stale"];
      SelectAll(stale[1..], videos) == []
  {
  }

  /**
   `Array.from(selectedVideos).map(id => videoData.find(...)).filter(Boolean)`:
   the first listed clip for each selected id, in selection order; ids no
   listed clip has are dropped.
   */
  function Prepare(sel: seq<string>, videos: seq<Clip>): (r: seq<Clip>)
    ensures |r| <= |sel|
    ensures forall c :: c in r ==> c in videos && c.id in sel
    ensures forall id :: id in sel && Find(videos, id).Some? ==> Find(videos, id).value in r
    ensures (forall id :: id in sel ==> Find(videos, id).Some?) ==> Ids(r) == sel
  {
    if |sel| == 0 then []
    else
      var rest := Prepare(sel[1..], videos);
      assert forall x :: x in sel <==> x == sel[0] || x in sel[1..] by {
        assert sel == [sel[0]] + sel[1..];
      }
      match Find(videos, sel[0])
      case None => rest
      case Some(c) =>
        assert Ids([c] + rest) == [c.id] + Ids(rest) by {
          assert ([c] + rest)[1..] == rest;
        }
        assert (forall id :: id in sel ==> Find(videos, id).Some?) ==> Ids([c] + rest) == sel by {
          assert sel == [sel[0]] + sel[1..];
        }
        [c] + rest
  }

  /** The number of selected ids that some listed clip has. */
  function Found(sel: seq<string>, videos: seq<Clip>): nat
  {
    if |sel| == 0 then 0
    else (if Find(videos, sel[0]).Some? then 1 else 0) + Found(sel[1..], videos)
  }

  /** Prepare keeps exactly one clip per found id and drops the rest. */
  lemma {:induction false} PrepareCount(sel: seq<string>, videos: seq<Clip>)
    ensures |Prepare(sel, videos)| == Found(sel, videos)
    decreases |sel|
  {
    if |sel| > 0 {
      PrepareCount(sel[1..], videos);
    }
  }

  /** With distinct ids, the prepared clips are distinct records. */
  lemma {:induction false} PrepareDistinct(sel: seq<string>, videos: seq<Clip>)
    requires Distinct(sel)
    ensures Distinct(Prepare(sel, videos))
    decreases |sel|
  {
    if |sel| > 0 {
      PrepareDistinct(sel[1..], videos);
      var rest := Prepare(sel[1..], videos);
      assert sel[0] !in sel[1..];
      assert forall c :: c in rest ==> c.id != sel[0];
    }
  }
}

=== FILE: speed.dfy ===
/**
 The download page's `updateDownloadStats`: each fully buffered file may
 add one throughput sample (KB/s) to a window of the five most recent; the
 displayed speed is their mean and the ETA text is refreshed from it.
 Samples are exact reals here; the page computes them in floating point.
 */
module Speed {

  import Eta

  const WindowSize := 5

  /** What the page shows: the samples kept, the mean speed, and the ETA text. */
  datatype Stats = Stats(samples: seq<real>, speed: real, eta: string)

  /**
   What a run starts from: `handleDownloadAll` empties the samples and the
   ETA text but leaves `downloadSpeed` alone, so the previous run's speed is
   still shown (0 on the page's first run).
   */
  function RunStart(previous: Stats): (r: Stats)
    ensures Good(r) && r.samples == [] && r.eta == "" && r.speed == previous.speed
  {
    Stats([], previous.speed, "")
  }

  /** Every kept sample is a positive speed and there are at most five. */
  predicate Good(s: Stats)
  {
    |s.samples| <= WindowSize && forall i :: 0 <= i < |s.samples| ==> s.samples[i] > 0.0
  }

  function Sum(xs: seq<real>): real
  {
    if |xs| == 0 then 0.0 else Sum(xs[..|xs| - 1]) + xs[|xs| - 1]
  }

  lemma {:induction false} SumPositive(xs: seq<real>)
    requires |xs| > 0 && forall i :: 0 <= i < |xs| ==> xs[i] > 0.0
    ensures Sum(xs) > 0.0
    decreases |xs|
  {
    if |xs| > 1 {
      SumPositive(xs[..|xs| - 1]);
    }
  }

  /** Bytes over milliseconds, in KB/s. */
  function SampleOf(bytes: nat, elapsedMs: nat): (r: real)
    requires bytes > 0 && elapsedMs > 0
    ensures r > 0.0
  {
    (bytes as real / elapsedMs as real) * 1000.0 / 1024.0
  }

  /** `push` then `shift` once when the window overflows. */
  function Push(samples: seq<real>, x: real): (r: seq<real>)
    requires |samples| <= WindowSize
    ensures |r| == if |samples| < WindowSize then |samples| + 1 else WindowSize
    ensures r[|r| - 1] == x
    ensures |samples| < WindowSize ==> r[..|r| - 1] == samples
    ensures |samples| == WindowSize ==> r[..|r| - 1] == samples[1..]
  {
    var pushed := samples + [x];
    if |pushed| > WindowSize then pushed[1..] else pushed
  }

  /**
   Records one finished file of `bytes` bytes, `elapsedMs` after the run's
   first transfer began, with `remainingBytes` still expected.
   */
  function Record(s: Stats, elapsedMs: int, bytes: int, remainingBytes: int): (r: Stats)
    requires Good(s)
    ensures Good(r)
    ensures !(elapsedMs > 0 && bytes > 0) ==> r == s
    ensures elapsedMs > 0 && bytes > 0 ==>
      && r.samples == Push(s.samples, SampleOf(bytes, elapsedMs))
      && r.speed > 0.0
      && r.speed == Mean(r.samples)
      && r.eta == EtaText(remainingBytes, r.speed)
  {
    if elapsedMs > 0 && bytes > 0 then
      var window := Push(s.samples, SampleOf(bytes, elapsedMs));
      PushKeepsPositive(s.samples, SampleOf(bytes, elapsedMs));
      var avg := Mean(window);
      Stats(window, avg, if avg > 0.0 then EtaText(remainingBytes, avg) else s.eta)
    else s
  }

  /** `formatTime(remainingBytes / 1024 / avgSpeed)` */
  function EtaText(remainingBytes: int, avg: real): string
    requires avg > 0.0
  {
    Eta.FormatTime(remainingBytes as real / 1024.0 / avg)
  }

  /** The arithmetic mean of a non-empty window of positive samples is positive. */
  function Mean(xs: seq<real>): (r: real)
    requires |xs| > 0 && forall i :: 0 <= i < |xs| ==> xs[i] > 0.0
    ensures r > 0.0
  {
    SumPositive(xs);
    QuotientPositive(Sum(xs), |xs| as real);
    Sum(xs) / (|xs| as real)
  }

  lemma QuotientPositive(a: real, b: real)
    requires a > 0.0 && b > 0.0
    ensures a / b > 0.0
  {
  }

  lemma PushKeepsPositive(samples: seq<real>, x: real)
    requires |samples| <= WindowSize && forall i :: 0 <= i < |samples| ==> samples[i] > 0.0
    requires x > 0.0
    ensures forall i :: 0 <= i < |Push(samples, x)| ==> Push(samples, x)[i] > 0.0
  {
    var w := Push(samples, x);
    if |samples| < WindowSize {
      assert forall i :: 0 <= i < |w| - 1 ==> w[i] == samples[i];
    } else {
      assert forall i :: 0 <= i < |w| - 1 ==> w[i] == samples[i + 1];
    }
  }

  /** The last `WindowSize` elements (all of them when there are fewer). */
  function LastFive(xs: seq<real>): (r: seq<real>)
  {
    if |xs| <= WindowSize then xs else xs[|xs| - WindowSize..]
  }

  /** One recorded file: its size, its elapsed time and what remained afterwards. */
  datatype Finish = Finish(elapsedMs: int, bytes: int, remainingBytes: int)

  predicate Counts(f: Finish)
  {
    f.elapsedMs > 0 && f.bytes > 0
  }

  /** The samples the finishes that count contribute, in order. */
  function Samples(fs: seq<Finish>): (r: seq<real>)
  {
    if |fs| == 0 then []
    else
      var last := fs[|fs| - 1];
      Samples(fs[..|fs| - 1]) + (if Counts(last) then [SampleOf(last.bytes as nat, last.elapsedMs as nat)] else [])
  }

  function RecordAll(s: Stats, fs: seq<Finish>): (r: Stats)
    requires Good(s)
    ensures Good(r)
    decreases |fs|
  {
    if |fs| == 0 then s
    else
      var last := fs[|fs| - 1];
      Record(RecordAll(s, fs[..|fs| - 1]), last.elapsedMs, last.bytes, last.remainingBytes)
  }

  /**
   From the run's zero-state, the window after any sequence of finished files
   is exactly the five most recent samples, oldest first: samples are dropped
   only from the front and only to make room.
   */
  lemma {:induction false} WindowIsLastFive(previous: Stats, fs: seq<Finish>)
    ensures RecordAll(RunStart(previous), fs).samples == LastFive(Samples(fs))
    decreases |fs|
  {
    if |fs| > 0 {
      var prefix := fs[..|fs| - 1];
      var last := fs[|fs| - 1];
      WindowIsLastFive(previous, prefix);
      if Counts(last) {
        var xs := Samples(prefix);
        var x := SampleOf(last.bytes as nat, last.elapsedMs as nat);
        assert Samples(fs) == xs + [x];
        PushLastFive(xs, x);
      } else {
        assert Samples(fs) == Samples(prefix);
      }
    }
  }

  lemma PushLastFive(xs: seq<real>, x: real)
    ensures Push(LastFive(xs), x) == LastFive(xs + [x])
  {
    var w := LastFive(xs);
    var pushed := w + [x];
    if |xs| >= WindowSize {
      assert pushed[1..] == (xs + [x])[|xs| + 1 - WindowSize..];
    }
  }

  /** A zero-byte file, or one finishing at the first instant, changes nothing shown. */
  lemma NoSampleNoChange(s: Stats, elapsedMs: int, remainingBytes: int)
    requires Good(s)
    ensures Record(s, elapsedMs, 0, remainingBytes) == s
    ensures Record(s, 0, 1, remainingBytes) == s
  {
  }

  /**
   Until the run's first sample, the speed shown is the previous run's and
   the ETA text stays empty.
   */
  lemma {:induction false} StaleSpeedUntilFirstSample(previous: Stats, fs: seq<Finish>)
    requires Samples(fs) == []
    ensures RecordAll(RunStart(previous), fs) == RunStart(previous)
    decreases |fs|
  {
    if |fs| > 0 {
      var prefix := fs[..|fs| - 1];
      var last := fs[|fs| - 1];
      assert !Counts(last);
      StaleSpeedUntilFirstSample(previous, prefix);
    }
  }

  /**
   The remaining byte count `updateDownloadStats` reads is the one captured
   when the run began, the same for every file. On the page's first run it
   is 0, and then every ETA the run shows is "Calculating...".
   */
  lemma {:induction false} FirstRunEtaCalculating(previous: Stats, fs: seq<Finish>)
    requires forall i :: 0 <= i < |fs| ==> fs[i].remainingBytes == 0
    ensures RecordAll(RunStart(previous), fs).eta == if Samples(fs) == [] then "" else Eta.Calculating
    decreases |fs|
  {
    if |fs| > 0 {
      var prefix := fs[..|fs| - 1];
      var last := fs[|fs| - 1];
      FirstRunEtaCalculating(previous, prefix);
      if Counts(last) {
        assert Samples(fs) != [];
        var r := RecordAll(RunStart(previous), fs);
        assert r.eta == EtaText(0, r.speed);
        assert 0.0 / 1024.0 / r.speed == 0.0;
      } else {
        assert Samples(fs) == Samples(prefix);
      }
    }
  }
}

=== FILE: text.dfy ===
/**
 Strings as the pages handle them: `String.prototype.split` and
 `Array.prototype.join` on a one-character separator, decimal rendering of
 whole numbers (`String(n)`), `padStart(2, "0")`, `endsWith`, and the
 code-unit order JavaScript uses for `<` and `>` on strings.
 */
module Text {

  import opened Wrappers

  /** `s.split(sep)`: the pieces between separators; never empty ("" splits to [""]). */
  function Split(s: string, sep: char): (r: seq<string>)
    ensures |r| >= 1
    decreases |s|
  {
    if |s| == 0 then [""]
    else
      var rest := Split(s[1..], sep);
      if s[0] == sep then [""] + rest
      else [[s[0]] + rest[0]] + rest[1..]
  }

  /** `xs.join(sep)` */
  function Join(xs: seq<string>, sep: char): string
    decreases |xs|
  {
    if |xs| == 0 then ""
    else if |xs| == 1 then xs[0]
    else xs[0] + [sep] + Join(xs[1..], sep)
  }

  lemma Join3(a: string, b: string, c: string, sep: char)
    ensures Join([a, b, c], sep) == a + [sep] + b + [sep] + c
  {
    assert [a, b, c][1..] == [b, c];
    assert [b, c][1..] == [c];
    assert Join([b, c], sep) == b + [sep] + c;
    assert Join([a, b, c], sep) == a + [sep] + (b + [sep] + c);
  }

  /** Three separator-free pieces joined by hand split back into the same three. */
  lemma SplitJoin3(a: string, b: string, c: string, sep: char)
    requires sep !in a && sep !in b && sep !in c
    ensures Split(a + [sep] + b + [sep] + c, sep) == [a, b, c]
  {
    Join3(a, b, c, sep);
    FreeOf3(a, b, c, sep);
    SplitJoin([a, b, c], sep);
  }

  function Reverse<T>(xs: seq<T>): (r: seq<T>)
    ensures |r| == |xs|
    ensures forall i :: 0 <= i < |xs| ==> r[i] == xs[|xs| - 1 - i]
  {
    if |xs| == 0 then [] else Reverse(xs[1..]) + [xs[0]]
  }

  /** No piece carries the separator. */
  predicate FreeOf(xs: seq<string>, sep: char)
  {
    forall i :: 0 <= i < |xs| ==> sep !in xs[i]
  }

  lemma {:induction false} SplitPiecesFreeOf(s: string, sep: char)
    ensures FreeOf(Split(s, sep), sep)
    decreases |s|
  {
    if |s| > 0 {
      SplitPiecesFreeOf(s[1..], sep);
    }
  }

  /** Joining the pieces of a split gives back the string. */
  lemma {:induction false} JoinSplit(s: string, sep: char)
    ensures Join(Split(s, sep), sep) == s
    decreases |s|
  {
    if |s| > 0 {
      var rest := Split(s[1..], sep);
      JoinSplit(s[1..], sep);
      if s[0] == sep {
        assert Split(s, sep) == [""] + rest;
        assert ([""] + rest)[1..] == rest;
      } else {
        var r := Split(s, sep);
        assert r == [[s[0]] + rest[0]] + rest[1..];
        if |rest| == 1 {
          assert r == [[s[0]] + rest[0]];
        } else {
          assert r[1..] == rest[1..];
          assert Join(rest, sep) == rest[0] + [sep] + Join(rest[1..], sep);
        }
      }
    }
  }

  /** Splitting a join of separator-free pieces gives back the pieces. */
  lemma {:induction false} SplitJoin(xs: seq<string>, sep: char)
    requires |xs| >= 1
    requires FreeOf(xs, sep)
    ensures Split(Join(xs, sep), sep) == xs
    decreases |xs|, |xs[0]|
  {
    if |xs[0]| == 0 {
      if |xs| > 1 {
        SplitJoin(xs[1..], sep);
        var j := Join(xs, sep);
        assert j == [sep] + Join(xs[1..], sep);
        assert j[1..] == Join(xs[1..], sep);
        assert [""] + xs[1..] == xs;
      }
    } else {
      var head := xs[0];
      var ys := [head[1..]] + xs[1..];
      assert FreeOf(ys, sep) by {
        assert forall i :: 1 <= i < |ys| ==> ys[i] == xs[i];
        assert sep !in head[1..];
      }
      SplitJoin(ys, sep);
      var j := Join(xs, sep);
      assert head[0] != sep by { assert head[0] in head; }
      assert j == [head[0]] + Join(ys, sep) by {
        if |xs| == 1 {
          assert [head[0]] + head[1..] == head;
        } else {
          assert ys[1..] == xs[1..];
          assert [head[0]] + head[1..] == head;
        }
      }
      assert j[1..] == Join(ys, sep);
      assert [[head[0]] + ys[0]] + ys[1..] == xs by {
        assert [head[0]] + head[1..] == head;
      }
    }
  }

  lemma ReverseReverse<T>(xs: seq<T>)
    ensures Reverse(Reverse(xs)) == xs
  {
  }

  lemma ReverseFreeOf(xs: seq<string>, sep: char)
    requires FreeOf(xs, sep)
    ensures FreeOf(Reverse(xs), sep)
  {
  }

  // ---------------------------------------------------------------------
  // Decimal digits and numbers
  // ---------------------------------------------------------------------

  predicate IsDigit(c: char)
  {
    '0' <= c <= '9'
  }

  predicate AllDigits(s: string)
  {
    forall i :: 0 <= i < |s| ==> IsDigit(s[i])
  }

  function DigitChar(d: nat): (c: char)
    requires d < 10
    ensures IsDigit(c)
  {
    ('0' as int + d) as char
  }

  function DigitValue(c: char): (d: nat)
    requires IsDigit(c)
    ensures d < 10
  {
    (c as int - '0' as int) as nat
  }

  /** The number a string of decimal digits denotes (leading zeros allowed). */
  function Value(s: string): nat
    requires AllDigits(s)
    decreases |s|
  {
    if |s| == 0 then 0 else 10 * Value(s[..|s| - 1]) + DigitValue(s[|s| - 1])
  }

  /** `String(n)` for a whole number n >= 0: no leading zeros. */
  function NatToString(n: nat): (s: string)
    ensures |s| >= 1 && AllDigits(s)
    ensures Value(s) == n
    ensures n < 10 <==> |s| == 1
    ensures |s| == 1 ==> s[0] == DigitChar(n)
  {
    if n < 10 then [DigitChar(n)]
    else
      var s := NatToString(n / 10) + [DigitChar(n % 10)];
      assert s[..|s| - 1] == NatToString(n / 10);
      s
  }

  /** `String(i)` for a whole number of either sign. */
  function IntToString(i: int): (s: string)
    ensures i >= 0 ==> s == NatToString(i)
    ensures i < 0 ==> s == "-" + NatToString(-i)
  {
    if i < 0 then "-" + NatToString(-i) else NatToString(i)
  }

  /** `s.padStart(2, "0")` */
  function Pad2(s: string): (r: string)
    ensures |r| == if |s| < 2 then 2 else |s|
    ensures r[|r| - |s|..] == s
    ensures forall i :: 0 <= i < |r| - |s| ==> r[i] == '0'
  {
    if |s| == 0 then "00" else if |s| == 1 then "0" + s else s
  }

  /** A two-digit field: what `Pad2(String(n))` gives for n below 100. */
  lemma TwoDigits(n: nat)
    requires n < 100
    ensures Pad2(NatToString(n)) == [DigitChar(n / 10), DigitChar(n % 10)]
  {
    if n >= 10 {
      assert NatToString(n) == NatToString(n / 10) + [DigitChar(n % 10)];
    }
  }

  /** Exactly two digits, leading zero kept. */
  function Digits2(n: nat): (r: string)
    requires n < 100
    ensures |r| == 2 && AllDigits(r)
  {
    [DigitChar(n / 10), DigitChar(n % 10)]
  }

  lemma Digits2Value(n: nat)
    requires n < 100
    ensures Value(Digits2(n)) == n
  {
    var f := Digits2(n);
    assert f[..1] == [DigitChar(n / 10)];
    assert f[..1][..0] == [];
    assert DigitValue(DigitChar(n / 10)) == n / 10;
    assert DigitValue(DigitChar(n % 10)) == n % 10;
    assert Value(f[..1]) == n / 10;
  }

  /** Exactly four digits, leading zeros kept. */
  function Digits4(n: nat): (r: string)
    requires n < 10000
    ensures |r| == 4 && AllDigits(r)
  {
    Digits2(n / 100) + Digits2(n % 100)
  }

  lemma Digits4Value(n: nat)
    requires n < 10000
    ensures Value(Digits4(n)) == n
  {
    Digits2Value(n / 100);
    Digits2Value(n % 100);
    ValueAppend2(Digits2(n / 100), Digits2(n % 100));
  }

  /** Appending two digits shifts the value by a hundred. */
  lemma ValueAppend2(a: string, b: string)
    requires AllDigits(a) && AllDigits(b) && |b| == 2
    ensures AllDigits(a + b)
    ensures Value(a + b) == 100 * Value(a) + Value(b)
  {
    var ab := a + b;
    assert ab[..|ab| - 1] == a + [b[0]];
    assert (a + [b[0]])[..|a|] == a;
    assert b[..1] == [b[0]] && b[..1][..0] == [];
    var a0 := a + [b[0]];
    assert a0[..|a0| - 1] == a;
    assert Value(a0) == 10 * Value(a) + DigitValue(b[0]);
    assert Value(b[..1]) == DigitValue(b[0]);
    assert Value(b) == 10 * DigitValue(b[0]) + DigitValue(b[1]);
    assert Value(ab) == 10 * Value(a0) + DigitValue(b[1]);
  }

  /** Reads a non-empty all-digit string. */
  function ParseNat(s: string): (r: Option<nat>)
    ensures r.Some? <==> |s| >= 1 && AllDigits(s)
    ensures r.Some? ==> r.value == Value(s)
  {
    if |s| >= 1 && AllDigits(s) then Some(Value(s)) else None
  }

  /** A separator that is not a digit never occurs in a string of digits. */
  lemma DigitsLack(s: string, sep: char)
    requires AllDigits(s) && !IsDigit(sep)
    ensures sep !in s
  {
  }

  lemma FreeOf3(a: string, b: string, c: string, sep: char)
    requires sep !in a && sep !in b && sep !in c
    ensures FreeOf([a, b, c], sep)
  {
  }

  // ---------------------------------------------------------------------
  // Suffixes and order
  // ---------------------------------------------------------------------

  /** `s.endsWith(suffix)` */
  predicate EndsWith(s: string, suffix: string)
  {
    |suffix| <= |s| && s[|s| - |suffix|..] == suffix
  }

  /** `a < b` on JavaScript strings: code-unit lexicographic order. */
  predicate Less(a: string, b: string)
    decreases |a|
  {
    if |a| == 0 then |b| > 0
    else if |b| == 0 then false
    else if a[0] != b[0] then a[0] < b[0]
    else Less(a[1..], b[1..])
  }
}

=== FILE: transfer.dfy ===
/**
 The download page's `downloadFile`: one clip's transfer ends in a success
 carrying the file's bytes under a name ending in ".mp4", or in a failure
 carrying the clip's own filename and the error message.
 */
module Transfer {

  import opened Text
  import opened Clips

  const Extension := ".mp4"

  /** A file's bytes (the blob `response.blob()` resolves to). */
  type Payload = seq<bv8>

  /**
   How the network answered for one clip: a body, a non-2xx status, or a
   thrown error (rejected `fetch` or `blob()`) with its message.
   */
  datatype Response = Ok(payload: Payload) | HttpError | NetworkError(message: string)

  /** The object `downloadFile` resolves to. */
  datatype Outcome =
    | Success(filename: string, blob: Payload)
    | Failure(filename: string, error: string)

  /** `name.endsWith(".mp4") ? name : name + ".mp4"` */
  function Normalize(name: string): (r: string)
    ensures EndsWith(r, Extension)
    ensures EndsWith(name, Extension) ==> r == name
    ensures !EndsWith(name, Extension) ==> r == name + Extension
  {
    if EndsWith(name, Extension) then name else name + Extension
  }

  /** Normalising twice is normalising once, and the original name is always a prefix. */
  lemma NormalizeIdempotent(name: string)
    ensures Normalize(Normalize(name)) == Normalize(name)
    ensures |Normalize(name)| >= |name| && Normalize(name)[..|name|] == name
  {
  }

  function Download(c: Clip, response: Response): (o: Outcome)
    ensures o.Success? <==> response.Ok?
    ensures o.Success? ==> o.filename == Normalize(c.filename) && o.blob == response.payload
    ensures o.Failure? ==> o.filename == c.filename
    ensures response.HttpError? ==> o.error == "Failed to download " + c.filename
    ensures response.NetworkError? ==> o.error == response.message
  {
    match response
    case Ok(payload) => Success(Normalize(c.filename), payload)
    case HttpError => Failure(c.filename, "Failed to download " + c.filename)
    case NetworkError(message) => Failure(c.filename, message)
  }
}

=== FILE: validation.dfy ===
/**
 The filter form of the player and the download page: dates are kept as
 `DD-MM-YYYY`, the browser's date input shows and returns `YYYY-MM-DD`,
 and `validateInputs` rejects a from-date later than the to-date and a
 from-time later than the to-time before any query is made.
 */
module Validation {

  import opened Wrappers
  import opened Text
  import Clock

  /** `s.split("-").reverse().join("-")` */
  function ReverseFields(s: string): string
  {
    Join(Reverse(Split(s, '-')), '-')
  }

  /** Reversing the fields twice gives back the string, whatever it is. */
  lemma ReverseFieldsInvolution(s: string)
    ensures ReverseFields(ReverseFields(s)) == s
  {
    var parts := Split(s, '-');
    SplitPiecesFreeOf(s, '-');
    ReverseFreeOf(parts, '-');
    SplitJoin(Reverse(parts), '-');
    ReverseReverse(parts);
    JoinSplit(s, '-');
  }

  datatype CalendarDate = CalendarDate(year: nat, month: nat, day: nat)

  /** The dates `new Date("YYYY-MM-DD")` accepts, as far as this model reads them. */
  predicate ValidDate(d: CalendarDate)
  {
    d.year < 10000 && 1 <= d.month <= 12 && 1 <= d.day <= 31
  }

  /** `new Date(s)` for an ISO calendar date; None stands for an invalid Date. */
  function IsoDate(s: string): (r: Option<CalendarDate>)
    ensures r.Some? ==> ValidDate(r.value)
  {
    var parts := Split(s, '-');
    if |parts| != 3 then None
    else
      var y, m, d := parts[0], parts[1], parts[2];
      if |y| == 4 && |m| == 2 && |d| == 2 && AllDigits(y) && AllDigits(m) && AllDigits(d)
         && ValidDate(CalendarDate(Value(y), Value(m), Value(d)))
      then Some(CalendarDate(Value(y), Value(m), Value(d)))
      else None
  }

  /** Date order: year, then month, then day. */
  predicate Later(a: CalendarDate, b: CalendarDate)
  {
    a.year > b.year
    || (a.year == b.year && a.month > b.month)
    || (a.year == b.year && a.month == b.month && a.day > b.day)
  }

  /** `fromDateObj > toDateObj`: false whenever either side is an invalid Date. */
  predicate DateAfter(a: Option<CalendarDate>, b: Option<CalendarDate>)
  {
    a.Some? && b.Some? && Later(a.value, b.value)
  }

  /** The player's reading of a stored date (Home.jsx): reverse the fields, then parse. */
  function PlayerDate(stored: string): Option<CalendarDate>
  {
    IsoDate(ReverseFields(stored))
  }

  /**
   The download page's `parseDate`: destructure the first three fields as
   day, month, year and parse `${year}-${month}-${day}`; a missing field
   interpolates as "undefined", which no date parser accepts.
   */
  function DownloadsDate(stored: string): Option<CalendarDate>
  {
    var parts := Split(stored, '-');
    if |parts| < 3 then None
    else IsoDate(parts[2] + "-" + parts[1] + "-" + parts[0])
  }

  /** The error object `validateInputs` builds: one key per failed rule. */
  datatype Errors = Errors(date: bool, time: bool)

  datatype Verdict = Verdict(errors: Errors, ok: bool)

  function KeyCount(e: Errors): nat
  {
    (if e.date then 1 else 0) + (if e.time then 1 else 0)
  }

  /** The rule both pages apply, given how each reads its dates. */
  function Check(fromDate: Option<CalendarDate>, toDate: Option<CalendarDate>, fromTime: string, toTime: string): (v: Verdict)
    ensures v.ok <==> !v.errors.date && !v.errors.time
    ensures v.errors.date ==> fromDate.Some? && toDate.Some?
    ensures v.errors.time ==> fromTime != toTime
  {
    var e := Errors(DateAfter(fromDate, toDate), Less(toTime, fromTime));
    LessIrreflexive(fromTime);
    Verdict(e, KeyCount(e) == 0)
  }

  lemma {:induction false} LessIrreflexive(s: string)
    ensures !Less(s, s)
    decreases |s|
  {
    if |s| > 0 {
      LessIrreflexive(s[1..]);
    }
  }

  /** The player's filter (Home.jsx `filter` state). */
  datatype Filter = Filter(device: string, fromDate: string, toDate: string, fromTime: string, toTime: string)

  function ValidatePlayer(f: Filter): Verdict
  {
    Check(PlayerDate(f.fromDate), PlayerDate(f.toDate), f.fromTime, f.toTime)
  }

  function ValidateDownloads(f: Filter): Verdict
  {
    Check(DownloadsDate(f.fromDate), DownloadsDate(f.toDate), f.fromTime, f.toTime)
  }

  /** Both pages read a three-field stored date the same way. */
  lemma SameDateOnThreeFields(stored: string)
    requires |Split(stored, '-')| == 3
    ensures PlayerDate(stored) == DownloadsDate(stored)
  {
    var p := Split(stored, '-');
    assert Reverse(p) == [p[2], p[1], p[0]];
    Join3(p[2], p[1], p[0], '-');
  }

  /** Hence the two pages' validations agree on every filter whose dates have three fields. */
  lemma SameRuleOnThreeFields(f: Filter)
    requires |Split(f.fromDate, '-')| == 3 && |Split(f.toDate, '-')| == 3
    ensures ValidatePlayer(f) == ValidateDownloads(f)
  {
    SameDateOnThreeFields(f.fromDate);
    SameDateOnThreeFields(f.toDate);
  }

  /** How a calendar date is stored in the filter: `DD-MM-YYYY`. */
  function StoredDate(d: CalendarDate): string
    requires ValidDate(d)
  {
    Digits2(d.day) + "-" + Digits2(d.month) + "-" + Digits4(d.year)
  }

  /** Both pages read a stored date back as the date it was made from. */
  lemma StoredDateReadsBack(d: CalendarDate)
    requires ValidDate(d)
    ensures PlayerDate(StoredDate(d)) == Some(d)
    ensures DownloadsDate(StoredDate(d)) == Some(d)
  {
    var dd, mm, yy := Digits2(d.day), Digits2(d.month), Digits4(d.year);
    DigitsLack(dd, '-');
    DigitsLack(mm, '-');
    DigitsLack(yy, '-');
    StoredSplits(StoredDate(d), dd, mm, yy);
    Digits2Value(d.day);
    Digits2Value(d.month);
    Digits4Value(d.year);
    IsoReads(yy + "-" + mm + "-" + dd, yy, mm, dd);
    SameDateOnThreeFields(StoredDate(d));
  }

  lemma StoredSplits(s: string, dd: string, mm: string, yy: string)
    requires s == dd + "-" + mm + "-" + yy
    requires '-' !in dd && '-' !in mm && '-' !in yy
    ensures Split(s, '-') == [dd, mm, yy]
    ensures ReverseFields(s) == yy + "-" + mm + "-" + dd
  {
    SplitJoin3(dd, mm, yy, '-');
    assert Reverse([dd, mm, yy]) == [yy, mm, dd];
    Join3(yy, mm, dd, '-');
  }

  lemma IsoReads(s: string, yy: string, mm: string, dd: string)
    requires s == yy + "-" + mm + "-" + dd
    requires |yy| == 4 && |mm| == 2 && |dd| == 2 && AllDigits(yy) && AllDigits(mm) && AllDigits(dd)
    requires ValidDate(CalendarDate(Value(yy), Value(mm), Value(dd)))
    ensures IsoDate(s) == Some(CalendarDate(Value(yy), Value(mm), Value(dd)))
  {
    DigitsLack(dd, '-');
    DigitsLack(mm, '-');
    DigitsLack(yy, '-');
    SplitJoin3(yy, mm, dd, '-');
  }

  /**
   For stored dates and well-formed `HH:MM:SS` times the verdict is exactly:
   a date error iff the from-date is later, a time error iff the from-time is
   a later instant, and success iff neither.
   */
  lemma VerdictMeaning(from: CalendarDate, to: CalendarDate, fromTime: string, toTime: string)
    requires ValidDate(from) && ValidDate(to)
    requires Clock.WellFormed(fromTime) && Clock.WellFormed(toTime)
    ensures var v := ValidatePlayer(Filter("", StoredDate(from), StoredDate(to), fromTime, toTime));
      && (v.errors.date <==> Later(from, to))
      && (v.errors.time <==> Clock.Seconds(toTime) < Clock.Seconds(fromTime))
      && (v.ok <==> !Later(from, to) && Clock.Seconds(fromTime) <= Clock.Seconds(toTime))
  {
    StoredDateReadsBack(from);
    StoredDateReadsBack(to);
    Clock.TimeOrder(toTime, fromTime);
  }

  /** Which field of the filter form changed (`e.target.name`). */
  datatype FieldName = SelectedDevice | FromDate | ToDate | FromTime | ToTime | Other

  /**
   `handleFilterChange`: a date input's `YYYY-MM-DD` value is stored as
   `DD-MM-YYYY`; any other field is stored as given.
   */
  function FilterChange(f: Filter, name: FieldName, value: string): (r: Filter)
    ensures name == FromDate ==> r == f.(fromDate := ReverseFields(value))
    ensures name == ToDate ==> r == f.(toDate := ReverseFields(value))
    ensures name !in {FromDate, ToDate} ==> r.fromDate == f.fromDate && r.toDate == f.toDate
  {
    match name
    case SelectedDevice => f.(device := value)
    case FromDate => f.(fromDate := ReverseFields(value))
    case ToDate => f.(toDate := ReverseFields(value))
    case FromTime => f.(fromTime := value)
    case ToTime => f.(toTime := value)
    case Other => f
  }

  /**
   The date inputs display `ReverseFields` of the stored value, so after a
   change the input shows exactly what was entered.
   */
  lemma DateInputShowsEntry(f: Filter, value: string)
    ensures ReverseFields(FilterChange(f, FromDate, value).fromDate) == value
    ensures ReverseFields(FilterChange(f, ToDate, value).toDate) == value
  {
    ReverseFieldsInvolution(value);
  }
}

=== FILE: wrappers.dfy ===
/** The optional value the pages express as `undefined`, `null` or a missing key. */
module Wrappers {

  datatype Option<+T> = None | Some(value: T)
}
